=== FILE: README.md ===
# isuwitter: the derived-view cache and feed selection, in Dafny

isuwitter is a small micro-blogging web application written in Go. Posts, users
and the follow lists live in a relational record store. A key-value cache
engine holds two derived views:

- under `"tweet-" + name`, each author's list of post lines
  (`time + "\t" + rendered text`), newest push at the head;
- under `"home-" + name`, each viewer's fully rendered home page.

This project models the logic around that cache as pure functions over
immutable data, and proves what each piece does:

- **Markup**: `htmlify`, which turns a post's raw text into stored HTML. It
  makes five ordered character replacements, then rewrites hashtags matched by
  `#(\S+)(\s|$)`. The regular expression is modelled as a hand-written scanner.
- **Friends**: `loadFriends`, which reads the comma-joined followee column. The
  split has Go's `strings.Split` semantics.
- **Cache**: the key space of strings and lists, and the commands the
  application issues (`GET`, `SET`, `DEL`, `LPUSH`, `LRANGE`). It also covers
  the post-line codec and the application's cache operations
  (`redisTweetStore`, `getHomeCache`, `updateHomeCache`, `clearHomeCache`).
  `Valid` is a shape invariant that every handler preserves.
- **Feeds**: the row-scanning loop shared by the home page, search and older
  author pages, with `strings.Index`. It also covers the author page's read of
  the cached list.
- **Handlers**: the cache and selection logic of `topHandler`,
  `tweetPostHandler`, `followHandler`/`unfollowHandler`, `userHandler` and
  `searchHandler`. Each is one atomic step from a store to a response and a
  new store.
- **Bake**: the flush-and-replay of `initializeRedisHandler`.
- **Rewrite**: the maintenance program that re-renders every stored post.

The record store, the follow table and template rendering are functions passed
in as the environment of a handler. So are the clock and each command's
failure outcome.

Where the Go code behaves differently from what its pages and their names
suggest, the model follows the code:

- **No hashtag index and no follow-set cache.** Tag search is the same linear
  scan as text search, with query `"#" + tag`. The follow list is fetched on every
  use by `loadFriends`. The version the handlers call is not shown; the model
  uses the body in `friend.go`, which reads the `friends` table.
- **The home cache ignores the cursor.** A cached home page is served even for
  a "load more" request with `until`. On a miss without `append`, the page
  built for the cursor is stored as the viewer's home page.
- **Bake replays newest first.** It pushes rows in `created_at DESC` order
  onto list heads, so each author's list ends up oldest-first from the head.
  Every line carries the replay time, not the post's creation time. A failed
  push ends the bake with an empty success response, not a failure.
- **`loadFriends` signatures do not match.** The callers use a three-result
  signature (ctx, list, error), while `friend.go` declares two results. The
  model uses `friend.go`'s body as the definition.

## Model

Source paths are relative to the repository root. `app.go` is
`var/www/webapp/go/isuwitter/app.go`.

| member | source | states |
|---|---|---|
| Markup.Replace | var/www/util/main.go:33-37 | `strings.Replace` with a one-character pattern: text without the character is unchanged, and the character never survives when the replacement lacks it |
| Markup.EscapeText | var/www/util/main.go:33-37 | the five ordered replacements; what they produce is stated by `EscapeTextIsSinglePass`, `EscapeTextEscaped`, `EscapeTextConcat`, `EscapeLessThan` and `EscapeEachLength` |
| Markup.EscapeTextIsSinglePass | var/www/util/main.go:33-37 | the five successive whole-text replacements equal replacing each character independently in one pass, because `&` goes first and no entity is escaped again |
| Markup.EscapeTextEscaped | var/www/util/main.go:33-37 | after the replacements the text holds no `<`, `>`, `'` or `"`, and every `&` starts one of `&amp;` `&lt;` `&gt;` `&apos;` `&quot;` |
| Markup.EscapeTextConcat | var/www/util/main.go:33-37 | escaping distributes over concatenation |
| Markup.EscapeLessThan | var/www/util/main.go:33-34 | `"<"` becomes exactly `"&lt;"`, not `"&amp;lt;"` |
| Markup.EscapeEachLength | var/www/util/main.go:33-37 | escaping never shortens text, and strictly lengthens text holding any of `& < > ' "` |
| Markup.HtmlEscape | var/www/util/main.go:40 | `html.EscapeString`, one entity per special character; it never shortens text, and `HtmlEscapeOfEscaped` states its effect on escaped text |
| Markup.HtmlEscapeOfEscaped | var/www/util/main.go:40 | on escaped text `html.EscapeString` changes only `&`, into `&amp;` |
| Markup.RunLength | var/www/util/main.go:29 | the `\S+` run is the longest prefix without RE2 whitespace (tab, LF, FF, CR, space), ending at whitespace or the end |
| Markup.MatchIsGreedy | var/www/util/main.go:29 | any match of the pattern at a `#` ends just after the maximal run and one terminator |
| Markup.MatchUnique | var/www/util/main.go:29 | at a given position the pattern matches at most one way |
| Markup.TagMatch | var/www/util/main.go:29 | the scanner reports a match exactly when the pattern matches there, with that match's end |
| Markup.Anchor | var/www/util/main.go:40 | the `Sprintf` of one link; its shape inside a rewritten text is stated by `LinkifyTagThenSpace`, `LinkifyTagAtEnd` and `HtmlifyTagAtEnd` |
| Markup.Linkify | var/www/util/main.go:39-41 | `rex.ReplaceAllStringFunc`; stated by `TagMatch` and the `Linkify…` lemma rows |
| Markup.LinkifyTagThenSpace | var/www/util/main.go:39-41 | a tag ended by whitespace becomes one link whose href and text both contain that whitespace; an inner `#` belongs to the tag; scanning resumes after it |
| Markup.LinkifyTagAtEnd | var/www/util/main.go:39-41 | a tag running to the end of the text becomes a link with no terminator |
| Markup.LinkifyBareHash | var/www/util/main.go:29 | a `#` directly followed by whitespace is kept as it is |
| Markup.LinkifyTrailingHash | var/www/util/main.go:29 | a `#` at the very end is kept as it is |
| Markup.LinkifyNoHash | var/www/util/main.go:39-41 | text without `#` is not changed by the hashtag rewrite |
| Markup.LinkifyGrows | var/www/util/main.go:39-41 | the hashtag rewrite never shortens text |
| Markup.LinkifyKeeps | var/www/util/main.go:39-41 | every character of the input is still in the output of the hashtag rewrite |
| Markup.HtmlifyTagAtEnd | var/www/util/main.go:39-41 | `htmlify("#" + tag)` links to the escaped tag, and its link text escapes the tag once more (every `&` of an entity reads `&amp;` there) |
| Markup.HtmlifyTagThenSpace | var/www/util/main.go:39-41 | `htmlify` of a tag, whitespace and more text is the link (whitespace inside) followed by `htmlify` of the rest |
| Markup.HtmlifyPlain | var/www/util/main.go:32-43 | text with no `#` and none of `& < > ' "` comes back unchanged |
| Markup.HtmlifyNotIdempotent | var/www/util/main.go:32-43 | on text holding any of `& < > ' "`, applying `htmlify` twice differs from applying it once |
| Markup.Htmlify | var/www/util/main.go:32-43 | escape, then link tags (the same function is at app.go:119-130); stated by `HtmlifyTagAtEnd`, `HtmlifyTagThenSpace`, `HtmlifyPlain` and `HtmlifyNotIdempotent` |
| Friends.Split | var/www/webapp/go/isuwitter/friend.go:21 | every piece is comma-free, and joining the pieces with `","` gives back the column exactly |
| Friends.SplitCount | var/www/webapp/go/isuwitter/friend.go:21 | there is one more piece than there are commas |
| Friends.SplitNoComma | var/www/webapp/go/isuwitter/friend.go:21 | a comma-free column is a single name |
| Friends.SplitFirstComma | var/www/webapp/go/isuwitter/friend.go:21 | the first piece ends at the first comma |
| Friends.SplitJoin | var/www/webapp/go/isuwitter/friend.go:21 | splitting undoes joining for every non-empty list of comma-free names (the inverse direction of `Split`'s contract) |
| Friends.SplitKeepsEmptyPieces | var/www/webapp/go/isuwitter/friend.go:21 | `"a,,b"` splits into `["a", "", "b"]`: empty pieces are kept in place |
| Friends.SplitEmpty | var/www/webapp/go/isuwitter/friend.go:21 | an empty column yields `[""]`, not an empty list |
| Friends.LoadFriends | var/www/webapp/go/isuwitter/friend.go:11-22 | a list comes back exactly when the row was found; a prepare failure, a missing row or a scan failure is an error, never an empty list; a returned list has at least one name, re-joins to the column, and holds no comma |
| Cache.KeyNamespaces | var/www/webapp/go/isuwitter/app.go:94-117 | `"home-"+a = "home-"+b` iff `a = b`, likewise for `"tweet-"`, and no home key is a tweet key |
| Cache.TweetKeyIsNotHomeKey | var/www/webapp/go/isuwitter/app.go:94-117 | no key lies in both namespaces |
| Cache.Get | var/www/webapp/go/isuwitter/app.go:107-109 | `GET` succeeds exactly on a reachable string key, with its value; an absent key is the nil error |
| Cache.Set | var/www/webapp/go/isuwitter/app.go:111-113 | `SET … 0` stores the string whatever the key held, and no other key changes |
| Cache.Del | var/www/webapp/go/isuwitter/app.go:115-117 | `DEL` removes the key, is not an error on an absent key, and no other key changes |
| Cache.LPush | var/www/webapp/go/isuwitter/app.go:95 | `LPUSH` fails exactly when the engine is unreachable or the key holds a string; otherwise the list becomes the item followed by the old list, and no other key changes |
| Cache.LRange | var/www/webapp/go/isuwitter/app.go:603 | `LRANGE` fails exactly as `LPUSH` does; otherwise it returns the elements from `start` to `stop` inclusive, in list order |
| Cache.FirstTab | var/www/webapp/go/isuwitter/app.go:610 | finds the first tab: no tab before it |
| Cache.EncodeLine | var/www/webapp/go/isuwitter/app.go:95 | a cached line is the time, a tab, then the text; stated by the round trips `DecodeEncode` and `EncodeDecode` and by `FirstTabAt` |
| Cache.DecodeLine | var/www/webapp/go/isuwitter/app.go:609-614 | splitting at the first tab succeeds iff the line has a tab, and the time part has no tab and re-joins with the text to the line |
| Cache.FirstTabAt | var/www/webapp/go/isuwitter/app.go:610 | the first tab is characterised by its position |
| Cache.DecodeEncode | var/www/webapp/go/isuwitter/app.go:609-616 | a line `ts + "\t" + text` with a tab-free `ts` splits back into exactly `(ts, text)`, even when `text` holds tabs |
| Cache.EncodeDecode | var/www/webapp/go/isuwitter/app.go:609-616 | a line with a tab is re-encoded exactly from its two pieces |
| Cache.TweetStore | var/www/webapp/go/isuwitter/app.go:94-105 | `redisTweetStore` puts `now + "\t" + text` at the head of `"tweet-"+user` and changes no other key; in a valid store it fails only when the engine is unreachable, and the store stays valid |
| Cache.GetHome | var/www/webapp/go/isuwitter/app.go:107-109 | a home-page hit is exactly the string stored under `"home-"+name` |
| Cache.UpdateHome | var/www/webapp/go/isuwitter/app.go:111-113 | after a successful write the viewer's page reads back as written, and only `"home-"+name` changed |
| Cache.ClearHome | var/www/webapp/go/isuwitter/app.go:115-117 | a successful clear removes `"home-"+name` and nothing else |
| Cache.ValidAfterPush | var/www/webapp/go/isuwitter/app.go:94-105 | pushing a line with a tab onto an author's list keeps the store valid |
| Cache.ValidTweetList | var/www/webapp/go/isuwitter/app.go:603-616 | in a valid store the author-page read of a reachable engine succeeds, and every line splits |
| Cache.ValidEmpty | var/www/webapp/go/isuwitter/app.go:209 | the flushed store is valid |
| Feeds.Gather | var/www/webapp/go/isuwitter/app.go:323-348 | the scan loop keeps the posts collected so far as a prefix, never returns more than 50, and adds only posts the filter accepts |
| Feeds.UserName | var/www/webapp/go/isuwitter/app.go:82-92 | `getUserName`: an unknown id reads as the empty name, which the home and search loops reject (`SelectAbortsAtBadRow`) |
| Feeds.UserId | var/www/webapp/go/isuwitter/app.go:70-80 | `getuserID`: an unknown name reads as id 0, which the author page answers not-found (`UserPage`) |
| Feeds.Select | var/www/webapp/go/isuwitter/app.go:323-348 | a page has at most 50 posts, all accepted by the filter |
| Feeds.GatherIsTakeOfFilter | var/www/webapp/go/isuwitter/app.go:323-348 | with posts already collected, the loop over clean rows yields the first 50 of those posts followed by the accepted ones |
| Feeds.SelectIsTakeOfFilter | var/www/webapp/go/isuwitter/app.go:323-348 | when every row scans and has an author, the page is the first 50 of the order-preserving subsequence the filter accepts |
| Feeds.GatherStopsAtPage | var/www/webapp/go/isuwitter/app.go:345-347 | once 50 posts are collected, later rows are never read |
| Feeds.SelectStopsAtPage | var/www/webapp/go/isuwitter/app.go:345-347 | a full page is unchanged by any rows after it, even rows that would fail to scan |
| Feeds.GatherAbortsAtBadRow | var/www/webapp/go/isuwitter/app.go:326-337 | with posts already collected, a row that fails to scan or has an unnamed author, reached before the page fills, makes the loop fail |
| Feeds.SelectAbortsAtBadRow | var/www/webapp/go/isuwitter/app.go:326-337 | a row that fails to scan or has an unnamed author, reached before the page fills, makes the whole page fail (a bad request in every handler) |
| Feeds.HomeFeed | var/www/webapp/go/isuwitter/app.go:323-348 | the home page has at most 50 posts, each by an author in the followee list |
| Feeds.OccursShift | var/www/webapp/go/isuwitter/app.go:713 | an occurrence in the tail of a string is an occurrence one position later in the whole |
| Feeds.IndexOf | var/www/webapp/go/isuwitter/app.go:713 | `strings.Index`: a position where the query occurs with no earlier one, and -1 exactly when it occurs nowhere |
| Feeds.SearchFeed | var/www/webapp/go/isuwitter/app.go:699-720 | search returns at most 50 posts, each of whose stored HTML contains the query |
| Feeds.SearchQuery | var/www/webapp/go/isuwitter/app.go:676-679 | the query is `"#" + tag` on the hashtag route and `q` otherwise; stated by the `Search` row |
| Feeds.OlderPosts | var/www/webapp/go/isuwitter/app.go:629-642 | an author page before a cursor has at most 50 posts, all labelled with the requested author |
| Feeds.OlderPostsAuthor | var/www/webapp/go/isuwitter/app.go:637 | every post the cursor loop collects carries the requested author's name |
| Feeds.DecodeAll | var/www/webapp/go/isuwitter/app.go:609-616 | decoding the lines succeeds iff every line has a tab; then post `i` re-joins to line `i`, has a tab-free time, and is labelled with the author |
| Feeds.RecentPosts | var/www/webapp/go/isuwitter/app.go:600-617 | without a cursor the page is the first min(51, n) lines of the author's list, in list order; in a valid store it cannot fail when the engine answers |
| Feeds.RecentWindow | var/www/webapp/go/isuwitter/app.go:603 | the inclusive range 0..50 returns min(n, 51) lines |
| Feeds.PushedPostFirst | var/www/webapp/go/isuwitter/app.go:600-617 | after a post is pushed, it is the first post of the author page, with its push time and text |
| Handlers.QueryError | var/www/webapp/go/isuwitter/app.go:307-313 | a failed query is answered not-found exactly when it found no rows, and bad-request otherwise |
| Handlers.Viewer | var/www/webapp/go/isuwitter/app.go:265-269 | the session user's name, empty for a visitor or an unknown id; the handler rows state what each does for the empty name |
| Handlers.Top | var/www/webapp/go/isuwitter/app.go:263-377 | only `"home-"+viewer` can change; a hit is written verbatim with the store unchanged; a write happens only for a signed-in viewer on a miss without `append`, and the stored page is the one served; a visitor's miss gets the welcome page; on a signed-in miss a failed query answers not-found or bad-request by its error, a failed follow-list read or a failed loop answers bad-request, an `append` request gets the fragment of the feed, a failed write answers bad-request, and otherwise the rendered index is stored and served; validity is kept |
| Handlers.TopHitIgnoresParameters | var/www/webapp/go/isuwitter/app.go:272-274 | on a hit, `until`, `append` and the write outcome make no difference, and nothing is written |
| Handlers.TopCachesCursorPage | var/www/webapp/go/isuwitter/app.go:350-375 | on a miss the page computed before a cursor is stored as the home page, and the next plain visit is served that page |
| Handlers.HomeShowsFolloweesOnly | var/www/webapp/go/isuwitter/app.go:339-344 | the viewer's own posts are on the home page only if the viewer is in their own followee list |
| Handlers.Post | var/www/webapp/go/isuwitter/app.go:379-420 | empty text or no signed-in user changes nothing; only the author's two keys can change; the rendered post is pushed whether or not the insert succeeded; when the insert failed only the author's list can change and the home page is kept; when the push failed only the home page can change; the home page is removed and the answer is a redirect when the insert and the delete succeed, and the answer is a bad request when either fails; a failed delete keeps the home page; validity is kept |
| Handlers.FollowChange | var/www/webapp/go/isuwitter/app.go:451-493 | only `"home-"+actor` can change; a failed follow-service call, or a failed delete after it, answers bad-request and changes nothing; the redirect follows exactly when the call and the delete succeed, and then the actor's home page is gone |
| Handlers.OthersHomeUnchanged | var/www/webapp/go/isuwitter/app.go:403-533 | a post, follow or unfollow leaves every other user's home page as it was, followers' included |
| Handlers.UserPage | var/www/webapp/go/isuwitter/app.go:554-664 | an unknown author is not found; every post shown is the author's; without a cursor the page is min(51, n) posts, with one at most 50; `append` selects the fragment; `mypage` and `isFriend` are as computed from the viewer and the follow list; without a cursor, in a valid store a reachable engine and a readable follow list always produce a page; a failed follow-list read or an unreachable engine answers bad-request; with a cursor a failed query answers not-found or bad-request by its error, a failed loop bad-request, and otherwise the page shows exactly the posts the loop collected; a cached line with no tab panics |
| Handlers.UserPageShowsList | var/www/webapp/go/isuwitter/app.go:600-617 | without a cursor, post `i` of the page is line `i` of the author's list, split at its first tab |
| Handlers.Search | var/www/webapp/go/isuwitter/app.go:666-739 | at most 50 results, each containing the query; on the hashtag route the query is `"#" + tag`; a failed query is not-found or bad-request by its error; a failed loop is a bad request; otherwise the page shows exactly the posts the loop collected |
| Bake.Replay | var/www/webapp/go/isuwitter/app.go:223-234 | the replay keeps the store valid, adds only tweet keys, and finishes only if every remaining row scanned |
| Bake.Bake | var/www/webapp/go/isuwitter/app.go:208-260 | a failed flush changes nothing; otherwise the store is valid with no home page in it; a failed query leaves it empty and answers a bad request; the store is what the replay built, so a scan error keeps every earlier push and answers a bad request; a finished replay answers empty when `SAVE` succeeds and a bad request when it fails |
| Bake.ReplayLines | var/www/webapp/go/isuwitter/app.go:223-234 | a finished replay puts each author's pushed lines, reversed, in front of the list it started with |
| Bake.BakeListsOldestFirst | var/www/webapp/go/isuwitter/app.go:217-234 | after a complete bake each author's list is the reverse of the newest-first read order, so the oldest post is at the head |
| Bake.BakeStampsReplayTime | var/www/webapp/go/isuwitter/app.go:95 | a baked line carries the time of the push, not the post's creation time |
| Bake.ReplayPrefix | var/www/webapp/go/isuwitter/app.go:223-234 | the replay of all rows continues from the store the replay of a prefix built |
| Bake.PushFailureKeepsEarlierPushes | var/www/webapp/go/isuwitter/app.go:231-233 | a failed push ends the bake with an empty answer and keeps every earlier push |
| Rewrite.Update | var/www/util/main.go:80 | the update renders one row's text and leaves every other row, and the set of rows, unchanged |
| Rewrite.RewriteRows | var/www/util/main.go:73-85 | the loop keeps the set of rows; rows not scanned are untouched; finishing means every row scanned and updated |
| Rewrite.RewriteAll | var/www/util/main.go:72-85 | a failed query crashes with nothing changed; otherwise the loop runs |
| Rewrite.RewriteRowsCompleted | var/www/util/main.go:73-85 | a finished loop over rows with distinct ids leaves every scanned row holding `htmlify` of the text it was scanned with |
| Rewrite.RewriteCompleted | var/www/util/main.go:72-85 | a completed run renders every scanned row and leaves every other row as it was |
| Rewrite.RewriteRowsPrefix | var/www/util/main.go:73-85 | the run over all rows continues from the table the run over a prefix left |
| Rewrite.RewriteStopsAtError | var/www/util/main.go:75-84 | a scan or update error at row `k` stops the run with exactly the updates of the rows before `k` |
| Rewrite.RewriteRendersTwice | var/www/util/main.go:80 | running the program over text that is already rendered renders it again, and the text changes |

## Left out

- HTTP routing, sessions, cookies, login and logout, and password hashing: these are transport and authentication glue. A session is reduced to an optional user id and a flash message.
- Template rendering: a rendered page is an opaque function of the template's data (`Env.render`).
- The SQL text and the record store's state: a query's answer is a function of the query (`Env.db`), and an insert's or update's success is a parameter. The rows a query returns are taken as given, in the order the query promises.
- `time.Now` and its formatting: the push time is a tab-free string parameter (`Timestamp`). The creation time of a row is kept as an already formatted string.
- The id-to-name tables are a `Directory` value. Filling them in `initializeHandler` is not modelled.
- `initializeHandler` (app.go:132-206): it deletes rows, calls the follow service, stops and starts the cache engine and copies files. All of this is process and file I/O.
- The `SAVE` and file copy at the end of `initializeRedisHandler` (app.go:237-260). `SAVE`'s outcome is a parameter; the copy is file I/O.
- The follow and unfollow requests to the follow service (app.go:467-480, 511-524). Their combined outcome is the parameter `remoteOk`, so follow and unfollow share one model, `FollowChange`.
- Handler concurrency: handlers are atomic steps, so interleavings between a cache read, the computation and the write are not modelled.
- Go `sql.Rows` scan errors that equal `sql.ErrNoRows` are tolerated by the loops' condition, but a scan never reports that error. A failed scan is modelled as a bad request.
- Strings are sequences of characters, not of bytes: invalid UTF-8 cannot be written, and `Feeds.IndexOf` returns a character offset where Go's `strings.Index` returns a byte offset. The two differ only in position, and the source only compares the result with -1 (app.go:713).
- Logging, tracing and profiling.
- `isutomo/migrate_friend.rb` and `kataribe.rb` are not part of this model: one is a one-off migration, the other a notification script.
- Rewrite.RewriteRowsCompleted: states the final text of a row only when scanned ids are distinct; with a repeated id, the last scan's rendering wins, and that is not stated.
- Bake.Replay: the replay pushes to `"tweet-"` plus whatever name the directory gives, including the empty name for an unknown author. The lemmas describe the lists per name and do not single out that case.

=== FILE: bake.dfy ===
/** `initializeRedisHandler`: empty the cache, then rebuild every author's
    list by pushing the stored posts, read newest first, one by one. */
module Bake {
  import opened Base
  import opened Cache
  import opened Feeds
  import opened Handlers

  /** How the replay loop ended. */
  datatype Stop = Finished | BadScan | PushFailed

  /** The replay loop from row `i` on. Row `i` is pushed with the time
      `clock(i)` the push happens at, onto the list of the author's name as
      the directory gives it; `pushUp(i)` says whether that push reached the
      engine. A scan error or a failed push ends the loop and keeps every
      earlier push. */
  function Replay(dir: Directory, st: Store, scans: seq<Scan>, i: nat, clock: nat -> Timestamp, pushUp: nat -> bool): (r: (Stop, Store))
    requires i <= |scans|
    ensures Valid(st) ==> Valid(r.1)
    ensures (forall k :: k in st ==> IsTweetKey(k)) ==> forall k :: k in r.1 ==> IsTweetKey(k)
    ensures r.0 == Finished ==> forall j :: i <= j < |scans| ==> scans[j].Scanned?
    decreases |scans| - i
  {
    if i == |scans| then (Finished, st)
    else match scans[i]
      case ScanError => (BadScan, st)
      case Scanned(row) =>
        var author := UserName(dir, row.userId);
        match TweetStore(st, author, clock(i), row.text, pushUp(i))
        case Err(_) => (PushFailed, st)
        case Ok(st') =>
          KeyNamespaces(author, author);
          Replay(dir, st', scans, i + 1, clock, pushUp)
  }

  /** `initializeRedisHandler` up to `SAVE`: a failed flush leaves the store
      as it was; a failed query leaves it empty. `saveUp` is the outcome of
      `SAVE`. The response is empty on success and also when a push fails. */
  function Bake(dir: Directory, st: Store, flushUp: bool, query: Query, clock: nat -> Timestamp, pushUp: nat -> bool, saveUp: bool): (o: Outcome)
    ensures !flushUp ==> o == Outcome(BadRequest, st)
    ensures flushUp ==> Valid(o.st) && forall k :: k in o.st ==> IsTweetKey(k) && !IsHomeKey(k)
    ensures o.resp == BadRequest || o.resp == Blank
    ensures flushUp && query.QueryFailed? ==> o == Outcome(BadRequest, map[])
    ensures flushUp && query.Rows? ==> o.st == Replay(dir, map[], query.scans, 0, clock, pushUp).1
    ensures flushUp && query.Rows? && Replay(dir, map[], query.scans, 0, clock, pushUp).0 == BadScan ==> o.resp == BadRequest
    ensures flushUp && query.Rows? && Replay(dir, map[], query.scans, 0, clock, pushUp).0 == Finished ==>
      o.resp == (if saveUp then Blank else BadRequest)
  {
    if !flushUp then Outcome(BadRequest, st)
    else
      ValidEmpty();
      match query
      case QueryFailed(_) => Outcome(BadRequest, map[])
      case Rows(scans) =>
        var (stop, st') := Replay(dir, map[], scans, 0, clock, pushUp);
        assert forall k :: k in st' ==> !IsHomeKey(k) by {
          forall k | k in st'
            ensures !IsHomeKey(k)
          {
            TweetKeyIsNotHomeKey(k);
          }
        }
        match stop
        case BadScan => Outcome(BadRequest, st')
        case PushFailed => Outcome(Blank, st')
        case Finished => Outcome(if saveUp then Blank else BadRequest, st')
  }

  // ---------------------------------------------------------------------------
  // What the lists hold afterwards.

  /** The lines the replay from row `i` pushes for `author`, in push order. */
  ghost function Pushed(dir: Directory, scans: seq<Scan>, clock: nat -> Timestamp, author: string, i: nat): seq<string>
    requires i <= |scans|
    decreases |scans| - i
  {
    if i == |scans| then []
    else if scans[i].Scanned? && UserName(dir, scans[i].row.userId) == author then
      [EncodeLine(clock(i), scans[i].row.text)] + Pushed(dir, scans, clock, author, i + 1)
    else Pushed(dir, scans, clock, author, i + 1)
  }

  /** One push changes only the pushing author's list. */
  lemma LinesAfterStore(st: Store, b: string, now: Timestamp, text: string, up: bool, author: string)
    requires TweetStore(st, b, now, text, up).Ok?
    ensures Lines(TweetStore(st, b, now, text, up).value, TweetKey(author))
         == if b == author then [EncodeLine(now, text)] + Lines(st, TweetKey(author)) else Lines(st, TweetKey(author))
  {
    KeyNamespaces(author, b);
  }

  lemma {:induction false} ReplayLines(dir: Directory, st: Store, scans: seq<Scan>, i: nat, clock: nat -> Timestamp, pushUp: nat -> bool, author: string)
    requires i <= |scans|
    requires Replay(dir, st, scans, i, clock, pushUp).0 == Finished
    ensures Lines(Replay(dir, st, scans, i, clock, pushUp).1, TweetKey(author))
         == Reverse(Pushed(dir, scans, clock, author, i)) + Lines(st, TweetKey(author))
    decreases |scans| - i
  {
    if i < |scans| {
      var row := scans[i].row;
      var b := UserName(dir, row.userId);
      var st' := TweetStore(st, b, clock(i), row.text, pushUp(i)).value;
      assert Replay(dir, st, scans, i, clock, pushUp) == Replay(dir, st', scans, i + 1, clock, pushUp);
      ReplayLines(dir, st', scans, i + 1, clock, pushUp, author);
      LinesAfterStore(st, b, clock(i), row.text, pushUp(i), author);
      var line := EncodeLine(clock(i), row.text);
      var rest := Pushed(dir, scans, clock, author, i + 1);
      if b == author {
        assert Pushed(dir, scans, clock, author, i) == [line] + rest;
        ReverseCons(line, rest);
      } else {
        assert Pushed(dir, scans, clock, author, i) == rest;
      }
    }
  }

  /** After a complete replay each author's list is the author's posts in
      the reverse of the order they were read. The rows are read newest
      first, so the head of every list is the author's oldest post; and each
      line carries the time of its push, not the post's creation time. */
  lemma BakeListsOldestFirst(dir: Directory, st: Store, scans: seq<Scan>, clock: nat -> Timestamp, pushUp: nat -> bool, saveUp: bool, author: string)
    requires Replay(dir, map[], scans, 0, clock, pushUp).0 == Finished
    ensures Lines(Bake(dir, st, true, Rows(scans), clock, pushUp, saveUp).st, TweetKey(author))
         == Reverse(Pushed(dir, scans, clock, author, 0))
  {
    ReplayLines(dir, map[], scans, 0, clock, pushUp, author);
    assert Lines(map[], TweetKey(author)) == [];
  }

  /** A single post is rebuilt as one line stamped with the replay time, and
      its creation time is lost. */
  lemma BakeStampsReplayTime(dir: Directory, st: Store, row: Row, clock: nat -> Timestamp, pushUp: nat -> bool)
    requires pushUp(0)
    ensures Lines(Bake(dir, st, true, Rows([Scanned(row)]), clock, pushUp, true).st, TweetKey(UserName(dir, row.userId)))
         == [EncodeLine(clock(0), row.text)]
    ensures DecodeLine(EncodeLine(clock(0), row.text)) == Some((clock(0), row.text))
  {
    var scans := [Scanned(row)];
    var author := UserName(dir, row.userId);
    KeyNamespaces(author, author);
    assert Replay(dir, map[], scans, 0, clock, pushUp).0 == Finished;
    BakeListsOldestFirst(dir, st, scans, clock, pushUp, true, author);
    assert Pushed(dir, scans, clock, author, 0) == [EncodeLine(clock(0), row.text)];
    DecodeEncode(clock(0), row.text);
  }

  /** One step of the replay at a row that scans and pushes. */
  lemma ReplayStep(dir: Directory, st: Store, scans: seq<Scan>, i: nat, clock: nat -> Timestamp, pushUp: nat -> bool)
    requires i < |scans| && scans[i].Scanned?
    requires TweetStore(st, UserName(dir, scans[i].row.userId), clock(i), scans[i].row.text, pushUp(i)).Ok?
    ensures Replay(dir, st, scans, i, clock, pushUp)
         == Replay(dir, TweetStore(st, UserName(dir, scans[i].row.userId), clock(i), scans[i].row.text, pushUp(i)).value, scans, i + 1, clock, pushUp)
  {
  }

  lemma {:induction false} ReplayPrefix(dir: Directory, st: Store, scans: seq<Scan>, i: nat, k: nat, clock: nat -> Timestamp, pushUp: nat -> bool)
    requires i <= k <= |scans|
    requires Replay(dir, st, scans[..k], i, clock, pushUp).0 == Finished
    ensures Replay(dir, st, scans, i, clock, pushUp)
         == Replay(dir, Replay(dir, st, scans[..k], i, clock, pushUp).1, scans, k, clock, pushUp)
    decreases k - i
  {
    if i < k {
      var pre := scans[..k];
      assert pre[i] == scans[i];
      var row := scans[i].row;
      var pushed := TweetStore(st, UserName(dir, row.userId), clock(i), row.text, pushUp(i));
      assert pushed.Ok?;
      ReplayStep(dir, st, pre, i, clock, pushUp);
      ReplayStep(dir, st, scans, i, clock, pushUp);
      ReplayPrefix(dir, pushed.value, scans, i + 1, k, clock, pushUp);
    }
  }

  /** A failed push ends the replay and undoes nothing: the store is the one
      the rows before it built. */
  lemma PushFailureKeepsEarlierPushes(dir: Directory, st: Store, scans: seq<Scan>, k: nat, clock: nat -> Timestamp, pushUp: nat -> bool, saveUp: bool)
    requires k < |scans| && scans[k].Scanned? && !pushUp(k)
    requires Replay(dir, map[], scans[..k], 0, clock, pushUp).0 == Finished
    ensures Bake(dir, st, true, Rows(scans), clock, pushUp, saveUp)
         == Outcome(Blank, Replay(dir, map[], scans[..k], 0, clock, pushUp).1)
  {
    ReplayPrefix(dir, map[], scans, 0, k, clock, pushUp);
  }
}

=== FILE: base.dfy ===
/** Small failure-compatible wrappers and sequence helpers shared by every
    other module of the model. */
module Base {

  /** A value that may be absent (Go's "ok" flag, or a nil result). */
  datatype Option<+T> = None | Some(value: T)

  /** A value or the error that replaced it (Go's `(value, error)` pair). */
  datatype Result<+T, +E> = Ok(value: T) | Err(error: E)

  /** Number of occurrences of `x` in `s`. */
  function Count<T(==)>(s: seq<T>, x: T): (n: nat)
    ensures n <= |s|
    ensures n == 0 <==> x !in s
  {
    if |s| == 0 then 0 else (if s[0] == x then 1 else 0) + Count(s[1..], x)
  }

  /** The first `n` elements of `s`, or all of `s` when it is shorter. */
  function Take<T>(s: seq<T>, n: nat): (r: seq<T>)
    ensures |r| == (if |s| < n then |s| else n)
    ensures r <= s
  {
    if |s| <= n then s else s[..n]
  }

  /** The elements of `s` that satisfy `keep`, in their original order. */
  function Filter<T>(keep: T -> bool, s: seq<T>): (r: seq<T>)
    ensures |r| <= |s|
    ensures forall i :: 0 <= i < |r| ==> r[i] in s && keep(r[i])
    ensures forall i :: 0 <= i < |s| && keep(s[i]) ==> s[i] in r
  {
    if |s| == 0 then []
    else if keep(s[0]) then [s[0]] + Filter(keep, s[1..])
    else Filter(keep, s[1..])
  }

  /** `s` backwards. */
  function Reverse<T>(s: seq<T>): (r: seq<T>)
    ensures |r| == |s|
    ensures forall i :: 0 <= i < |s| ==> r[i] == s[|s| - 1 - i]
  {
    if |s| == 0 then [] else Reverse(s[1..]) + [s[0]]
  }

  /** Reversing a list with a new head puts that element last. */
  lemma ReverseCons<T>(x: T, s: seq<T>)
    ensures Reverse([x] + s) == Reverse(s) + [x]
  {
    assert ([x] + s)[1..] == s;
  }
}

=== FILE: cache.dfy ===
/** The cache engine as the application uses it: one key space holding
    strings (a viewer's rendered home page under `"home-" + name`) and lists
    (an author's post lines under `"tweet-" + name`), plus the handful of
    commands the application issues against it. */
module Cache {
  import opened Base

  /** What a key holds. */
  datatype Value = Str(s: string) | List(items: seq<string>)

  type Store = map<string, Value>

  /** Why a command came back with an error: the key is absent (`GET` only),
      holds the other kind of value, or the engine could not be reached. */
  datatype Fault = Nil | WrongType | Unreachable

  const HomePrefix: string := "home-"
  const TweetPrefix: string := "tweet-"

  /** Key of a viewer's cached home page. */
  function HomeKey(name: string): string
  {
    HomePrefix + name
  }

  /** Key of an author's list of post lines. */
  function TweetKey(name: string): string
  {
    TweetPrefix + name
  }

  predicate IsHomeKey(k: string)
  {
    HomePrefix <= k
  }

  predicate IsTweetKey(k: string)
  {
    TweetPrefix <= k
  }

  /** The two namespaces are disjoint and each is injective in the name. */
  lemma KeyNamespaces(a: string, b: string)
    ensures HomeKey(a) == HomeKey(b) <==> a == b
    ensures TweetKey(a) == TweetKey(b) <==> a == b
    ensures HomeKey(a) != TweetKey(b)
    ensures IsHomeKey(HomeKey(a)) && !IsTweetKey(HomeKey(a))
    ensures IsTweetKey(TweetKey(b)) && !IsHomeKey(TweetKey(b))
  {
    if HomeKey(a) == HomeKey(b) {
      assert a == HomeKey(a)[|HomePrefix|..];
      assert b == HomeKey(b)[|HomePrefix|..];
    }
    if TweetKey(a) == TweetKey(b) {
      assert a == TweetKey(a)[|TweetPrefix|..];
      assert b == TweetKey(b)[|TweetPrefix|..];
    }
    assert HomeKey(a)[0] == 'h';
    assert TweetKey(b)[0] == 't';
  }

  /** No key is in both namespaces. */
  lemma TweetKeyIsNotHomeKey(k: string)
    requires IsTweetKey(k)
    ensures !IsHomeKey(k)
  {
    assert k[0] == 't';
  }

  /** `a` and `b` agree on every key outside `changed`. */
  ghost predicate Agree(a: Store, b: Store, changed: set<string>)
  {
    forall k :: k !in changed ==> (k in a <==> k in b) && (k in a ==> a[k] == b[k])
  }

  /** The list under `key`; an absent key reads as the empty list. */
  function Lines(st: Store, key: string): seq<string>
  {
    if key in st && st[key].List? then st[key].items else []
  }

  // ---------------------------------------------------------------------------
  // Commands. `up` says whether the engine answered; when it did not the
  // command fails and the store is as it was.

  /** `GET key`. */
  function Get(st: Store, key: string, up: bool): (r: Result<string, Fault>)
    ensures r.Ok? <==> up && key in st && st[key].Str?
    ensures r.Ok? ==> r.value == st[key].s
    ensures up && key !in st ==> r == Err(Nil)
  {
    if !up then Err(Unreachable)
    else if key !in st then Err(Nil)
    else match st[key]
      case Str(s) => Ok(s)
      case List(_) => Err(WrongType)
  }

  /** `SET key value 0`: no expiry, whatever the key held before. */
  function Set(st: Store, key: string, v: string, up: bool): (r: Result<Store, Fault>)
    ensures r.Ok? <==> up
    ensures r.Ok? ==> key in r.value && r.value[key] == Str(v)
    ensures r.Ok? ==> Agree(st, r.value, {key})
  {
    if up then Ok(st[key := Str(v)]) else Err(Unreachable)
  }

  /** `DEL key`: deleting an absent key is not an error. */
  function Del(st: Store, key: string, up: bool): (r: Result<Store, Fault>)
    ensures r.Ok? <==> up
    ensures r.Ok? ==> key !in r.value && Agree(st, r.value, {key})
  {
    if up then Ok(st - {key}) else Err(Unreachable)
  }

  /** `LPUSH key item`: puts `item` at the head of the list, creating it if
      needed; a key holding a string is refused. */
  function LPush(st: Store, key: string, item: string, up: bool): (r: Result<Store, Fault>)
    ensures r.Err? <==> !up || (key in st && st[key].Str?)
    ensures r.Ok? ==> key in r.value && r.value[key].List?
    ensures r.Ok? ==> Lines(r.value, key) == [item] + Lines(st, key)
    ensures r.Ok? ==> Agree(st, r.value, {key})
  {
    if !up then Err(Unreachable)
    else if key !in st then Ok(st[key := List([item])])
    else match st[key]
      case Str(_) => Err(WrongType)
      case List(items) => Ok(st[key := List([item] + items)])
  }

  /** Number of elements `LRANGE key start stop` returns from a list of
      length `n`: both ends are inclusive. */
  function WindowSize(n: nat, start: nat, stop: nat): nat
  {
    if start >= n || start > stop then 0
    else if stop < n then stop - start + 1
    else n - start
  }

  /** `LRANGE key start stop` with non-negative bounds. */
  function LRange(st: Store, key: string, start: nat, stop: nat, up: bool): (r: Result<seq<string>, Fault>)
    ensures r.Err? <==> !up || (key in st && st[key].Str?)
    ensures r.Ok? ==> |r.value| == WindowSize(|Lines(st, key)|, start, stop)
    ensures r.Ok? ==> forall i :: 0 <= i < |r.value| ==> r.value[i] == Lines(st, key)[start + i]
  {
    if !up then Err(Unreachable)
    else if key in st && st[key].Str? then Err(WrongType)
    else
      var items := Lines(st, key);
      var n := WindowSize(|items|, start, stop);
      if n == 0 then Ok([]) else Ok(items[start..start + n])
  }

  // ---------------------------------------------------------------------------
  // Post lines: a timestamp and the rendered text, separated by a tab.

  /** A formatted time (`2006-01-02 15:04:05`); it never holds a tab. */
  type Timestamp = s: string | '\t' !in s witness ""

  function EncodeLine(ts: Timestamp, text: string): string
  {
    ts + "\t" + text
  }

  /** Position of the first tab. */
  function FirstTab(s: string): (r: Option<nat>)
    ensures r.None? <==> '\t' !in s
    ensures r.Some? ==> r.value < |s| && s[r.value] == '\t' && '\t' !in s[..r.value]
  {
    if |s| == 0 then None
    else if s[0] == '\t' then Some(0)
    else match FirstTab(s[1..])
      case None => None
      case Some(i) =>
        assert s[..i + 1] == [s[0]] + s[1..][..i];
        Some(i + 1)
  }

  /** `strings.SplitN(line, "\t", 2)` read as (time, text). A line without a
      tab has no second piece: reading it is the index panic of the source. */
  function DecodeLine(line: string): (r: Option<(string, string)>)
    ensures r.Some? <==> '\t' in line
    ensures r.Some? ==> '\t' !in r.value.0 && r.value.0 + "\t" + r.value.1 == line
  {
    match FirstTab(line)
    case None => None
    case Some(i) =>
      assert line == line[..i] + "\t" + line[i + 1..];
      Some((line[..i], line[i + 1..]))
  }

  /** The first tab is characterised by position. */
  lemma {:induction false} FirstTabAt(s: string, j: nat)
    requires j < |s| && s[j] == '\t' && '\t' !in s[..j]
    ensures FirstTab(s) == Some(j)
  {
    if j > 0 {
      assert s[0] in s[..j];
      assert s[1..][..j - 1] == s[1..j];
      assert forall c :: c in s[1..j] ==> c in s[..j];
      FirstTabAt(s[1..], j - 1);
    }
  }

  /** Splitting a line at its first tab gives back exactly the time and the
      text it was made from, even when the text holds tabs. */
  lemma DecodeEncode(ts: Timestamp, text: string)
    ensures DecodeLine(EncodeLine(ts, text)) == Some((ts, text))
  {
    var line := EncodeLine(ts, text);
    assert line[..|ts|] == ts;
    assert line[|ts|] == '\t';
    FirstTabAt(line, |ts|);
    assert line[|ts| + 1..] == text;
  }

  /** The other direction: a line with a tab is re-encoded from its pieces. */
  lemma EncodeDecode(line: string)
    requires '\t' in line
    ensures DecodeLine(line).Some?
    ensures EncodeLine(DecodeLine(line).value.0, DecodeLine(line).value.1) == line
  {
  }

  // ---------------------------------------------------------------------------
  // The application's cache operations.

  /** `redisTweetStore`: pushes `now + "\t" + text` onto the head of the
      author's list. */
  function TweetStore(st: Store, userName: string, now: Timestamp, text: string, up: bool): (r: Result<Store, Fault>)
    ensures r.Ok? ==> Lines(r.value, TweetKey(userName)) == [EncodeLine(now, text)] + Lines(st, TweetKey(userName))
    ensures r.Ok? ==> Agree(st, r.value, {TweetKey(userName)})
    ensures Valid(st) ==> (r.Ok? <==> up)
    ensures Valid(st) && r.Ok? ==> Valid(r.value)
  {
    KeyNamespaces(userName, userName);
    var r := LPush(st, TweetKey(userName), EncodeLine(now, text), up);
    assert Valid(st) && r.Ok? ==> Valid(r.value) by {
      if Valid(st) && r.Ok? {
        ValidAfterPush(st, r.value, userName, EncodeLine(now, text));
      }
    }
    r
  }

  /** `getHomeCache`. */
  function GetHome(st: Store, name: string, up: bool): (r: Result<string, Fault>)
    ensures r.Ok? <==> up && HomeKey(name) in st && st[HomeKey(name)].Str?
    ensures r.Ok? ==> r.value == st[HomeKey(name)].s
  {
    Get(st, HomeKey(name), up)
  }

  /** `updateHomeCache`. */
  function UpdateHome(st: Store, name: string, page: string, up: bool): (r: Result<Store, Fault>)
    ensures r.Ok? <==> up
    ensures r.Ok? ==> GetHome(r.value, name, true) == Ok(page)
    ensures r.Ok? ==> Agree(st, r.value, {HomeKey(name)})
    ensures Valid(st) && r.Ok? ==> Valid(r.value)
  {
    KeyNamespaces(name, name);
    Set(st, HomeKey(name), page, up)
  }

  /** `clearHomeCache`. */
  function ClearHome(st: Store, name: string, up: bool): (r: Result<Store, Fault>)
    ensures r.Ok? <==> up
    ensures r.Ok? ==> HomeKey(name) !in r.value && Agree(st, r.value, {HomeKey(name)})
    ensures Valid(st) && r.Ok? ==> Valid(r.value)
  {
    Del(st, HomeKey(name), up)
  }

  // ---------------------------------------------------------------------------
  // The shape every reachable store has.

  /** Strings live only under home keys, lists only under tweet keys, and
      every list element is a line with a tab in it. */
  ghost predicate Valid(st: Store)
  {
    forall k :: k in st ==>
      && (st[k].Str? ==> IsHomeKey(k))
      && (st[k].List? ==> IsTweetKey(k) && forall i :: 0 <= i < |st[k].items| ==> '\t' in st[k].items[i])
  }

  lemma ValidAfterPush(st: Store, st': Store, userName: string, line: string)
    requires Valid(st) && '\t' in line
    requires TweetKey(userName) in st' && st'[TweetKey(userName)].List?
    requires st'[TweetKey(userName)].items == [line] + Lines(st, TweetKey(userName))
    requires Agree(st, st', {TweetKey(userName)})
    ensures Valid(st')
  {
    KeyNamespaces(userName, userName);
    var k := TweetKey(userName);
    var items := st'[k].items;
    assert forall i :: 1 <= i < |items| ==> items[i] == Lines(st, k)[i - 1];
  }

  /** In a valid store an author's list can always be read, and every line
      of it splits into a time and a text. */
  lemma ValidTweetList(st: Store, name: string)
    requires Valid(st)
    ensures LRange(st, TweetKey(name), 0, 50, true).Ok?
    ensures forall i :: 0 <= i < |Lines(st, TweetKey(name))| ==> DecodeLine(Lines(st, TweetKey(name))[i]).Some?
  {
    KeyNamespaces(name, name);
  }

  /** The empty store (after `FLUSHDB`) is valid. */
  lemma ValidEmpty()
    ensures Valid(map[])
  {
  }
}

=== FILE: feeds.dfy ===
/** Feed selection: the loops that turn rows of the `tweets` table, read
    newest first, into the posts a page shows, and the author page's read of
    the cached list. */
module Feeds {
  import opened Base
  import opened Cache

  /** Posts per page (`perPage`). */
  const PerPage: nat := 50

  /** Last index of the author-page read `LRANGE key 0 50`; both ends are
      inclusive, so up to 51 lines come back. */
  const RecentStop: nat := 50

  /** A row of the `tweets` table. `text` is stored already rendered; the
      creation time is taken as already formatted. */
  datatype Row = Row(id: int, userId: int, text: string, createdAt: string)

  /** What one `rows.Scan` produced. */
  datatype Scan = Scanned(row: Row) | ScanError

  /** The queries sent to the `tweets` table. */
  datatype DbQuery =
    | AllTweets
    | TweetsBefore(until: string)
    | AuthorTweetsBefore(userId: int, until: string)

  /** A query's answer: an error (`noRows` when it is `sql.ErrNoRows`) or
      the scans of its rows, newest first. */
  datatype Query = QueryFailed(noRows: bool) | Rows(scans: seq<Scan>)

  /** A post as the templates receive it. */
  datatype Tweet = Tweet(userName: string, html: string, time: string)

  /** The in-process lookup tables `userIDuserName` and `userNameuserID`. */
  datatype Directory = Directory(names: map<int, string>, ids: map<string, int>)

  /** `getUserName`: an unknown id reads as the empty name. */
  function UserName(dir: Directory, id: int): string
  {
    if id in dir.names then dir.names[id] else ""
  }

  /** `getuserID`: an unknown name reads as id 0. */
  function UserId(dir: Directory, name: string): int
  {
    if name in dir.ids then dir.ids[name] else 0
  }

  /** The author name the home and search loops give a row; `None` when
      `getUserName` yields the empty name, which aborts the loop. */
  function Named(dir: Directory): Row -> Option<string>
  {
    (row: Row) => if UserName(dir, row.userId) == "" then None else Some(UserName(dir, row.userId))
  }

  function TweetOf(row: Row, author: string): Tweet
  {
    Tweet(author, row.text, row.createdAt)
  }

  // ---------------------------------------------------------------------------
  // The scan loop shared by the home page, search and older author pages.

  /** One pass of the source's `for rows.Next()` loop: a scan error or an
      unlabelled row aborts (`None`, a bad request); a row whose post `keep`
      accepts is appended; the loop ends once `PerPage` posts are collected. */
  function Gather(scans: seq<Scan>, namer: Row -> Option<string>, keep: Tweet -> bool, acc: seq<Tweet>): (r: Option<seq<Tweet>>)
    requires |acc| < PerPage
    ensures r.Some? ==> acc <= r.value && |r.value| <= PerPage
    ensures r.Some? ==> forall i :: |acc| <= i < |r.value| ==> keep(r.value[i])
    decreases |scans|
  {
    if |scans| == 0 then Some(acc)
    else match scans[0]
      case ScanError => None
      case Scanned(row) =>
        match namer(row)
        case None => None
        case Some(author) =>
          var t := TweetOf(row, author);
          var acc' := if keep(t) then acc + [t] else acc;
          if |acc'| == PerPage then Some(acc')
          else Gather(scans[1..], namer, keep, acc')
  }

  /** The loop started with no posts. */
  function Select(scans: seq<Scan>, namer: Row -> Option<string>, keep: Tweet -> bool): (r: Option<seq<Tweet>>)
    ensures r.Some? ==> |r.value| <= PerPage
    ensures r.Some? ==> forall i :: 0 <= i < |r.value| ==> keep(r.value[i])
  {
    Gather(scans, namer, keep, [])
  }

  /** Every row scans and gets a namer. */
  ghost predicate Clean(scans: seq<Scan>, namer: Row -> Option<string>)
  {
    forall i :: 0 <= i < |scans| ==> scans[i].Scanned? && namer(scans[i].row).Some?
  }

  /** The posts of clean rows, in row order. */
  ghost function Tweets(scans: seq<Scan>, namer: Row -> Option<string>): (r: seq<Tweet>)
    requires Clean(scans, namer)
    ensures |r| == |scans|
  {
    if |scans| == 0 then []
    else [TweetOf(scans[0].row, namer(scans[0].row).value)] + Tweets(scans[1..], namer)
  }

  lemma {:induction false} GatherIsTakeOfFilter(scans: seq<Scan>, namer: Row -> Option<string>, keep: Tweet -> bool, acc: seq<Tweet>)
    requires |acc| < PerPage
    requires Clean(scans, namer)
    ensures Gather(scans, namer, keep, acc) == Some(Take(acc + Filter(keep, Tweets(scans, namer)), PerPage))
    decreases |scans|
  {
    var all := Tweets(scans, namer);
    if |scans| == 0 {
      assert acc + Filter(keep, all) == acc;
    } else {
      var row := scans[0].row;
      var t := TweetOf(row, namer(row).value);
      var rest := Tweets(scans[1..], namer);
      assert all == [t] + rest;
      assert all[1..] == rest;
      var acc' := if keep(t) then acc + [t] else acc;
      assert acc + Filter(keep, all) == acc' + Filter(keep, rest);
      assert Gather(scans, namer, keep, acc) == if |acc'| == PerPage then Some(acc') else Gather(scans[1..], namer, keep, acc');
      if |acc'| == PerPage {
        var whole := acc' + Filter(keep, rest);
        if |whole| > PerPage {
          assert whole[..PerPage] == acc';
        } else {
          assert whole == acc';
        }
        assert Take(whole, PerPage) == acc';
      } else {
        assert Clean(scans[1..], namer) by {
          forall i | 0 <= i < |scans[1..]|
            ensures scans[1..][i].Scanned? && namer(scans[1..][i].row).Some?
          {
            assert scans[1..][i] == scans[i + 1];
          }
        }
        GatherIsTakeOfFilter(scans[1..], namer, keep, acc');
      }
    }
  }

  /** Reference definition of every feed: when every row scans and is
      labelled, the loop returns the first `PerPage` posts of the
      order-preserving subsequence `keep` accepts. */
  lemma SelectIsTakeOfFilter(scans: seq<Scan>, namer: Row -> Option<string>, keep: Tweet -> bool)
    requires Clean(scans, namer)
    ensures Select(scans, namer, keep) == Some(Take(Filter(keep, Tweets(scans, namer)), PerPage))
  {
    GatherIsTakeOfFilter(scans, namer, keep, []);
    assert [] + Filter(keep, Tweets(scans, namer)) == Filter(keep, Tweets(scans, namer));
  }

  lemma {:induction false} GatherStopsAtPage(scans: seq<Scan>, more: seq<Scan>, namer: Row -> Option<string>, keep: Tweet -> bool, acc: seq<Tweet>)
    requires |acc| < PerPage
    requires Gather(scans, namer, keep, acc).Some?
    requires |Gather(scans, namer, keep, acc).value| == PerPage
    ensures Gather(scans + more, namer, keep, acc) == Gather(scans, namer, keep, acc)
    decreases |scans|
  {
    if |scans| > 0 {
      assert (scans + more)[0] == scans[0];
      assert (scans + more)[1..] == scans[1..] + more;
      var row := scans[0].row;
      var t := TweetOf(row, namer(row).value);
      var acc' := if keep(t) then acc + [t] else acc;
      if |acc'| < PerPage {
        GatherStopsAtPage(scans[1..], more, namer, keep, acc');
      }
    }
  }

  /** Once a page is full the loop stops reading: later rows, even ones that
      would fail to scan, change nothing. */
  lemma SelectStopsAtPage(scans: seq<Scan>, more: seq<Scan>, namer: Row -> Option<string>, keep: Tweet -> bool)
    requires Select(scans, namer, keep).Some?
    requires |Select(scans, namer, keep).value| == PerPage
    ensures Select(scans + more, namer, keep) == Select(scans, namer, keep)
  {
    GatherStopsAtPage(scans, more, namer, keep, []);
  }

  lemma {:induction false} GatherAbortsAtBadRow(scans: seq<Scan>, k: nat, namer: Row -> Option<string>, keep: Tweet -> bool, acc: seq<Tweet>)
    requires |acc| < PerPage && k < |scans|
    requires Gather(scans[..k], namer, keep, acc).Some?
    requires |Gather(scans[..k], namer, keep, acc).value| < PerPage
    requires scans[k].ScanError? || namer(scans[k].row).None?
    ensures Gather(scans, namer, keep, acc) == None
    decreases k
  {
    if k > 0 {
      assert scans[..k][0] == scans[0];
      assert scans[..k][1..] == scans[1..][..k - 1];
      var row := scans[0].row;
      var t := TweetOf(row, namer(row).value);
      var acc' := if keep(t) then acc + [t] else acc;
      GatherAbortsAtBadRow(scans[1..], k - 1, namer, keep, acc');
    }
  }

  /** A row that fails to scan, or whose author has no name, reached before
      the page is full aborts the whole loop. */
  lemma SelectAbortsAtBadRow(scans: seq<Scan>, k: nat, namer: Row -> Option<string>, keep: Tweet -> bool)
    requires k < |scans|
    requires Select(scans[..k], namer, keep).Some?
    requires |Select(scans[..k], namer, keep).value| < PerPage
    requires scans[k].ScanError? || namer(scans[k].row).None?
    ensures Select(scans, namer, keep) == None
  {
    GatherAbortsAtBadRow(scans, k, namer, keep, []);
  }

  // ---------------------------------------------------------------------------
  // The three uses of the loop.

  /** `topHandler`'s loop: posts whose author occurs in the followee list.
      The viewer's own posts are not special: they appear only when the
      viewer's name is in the list. */
  function HomeFeed(scans: seq<Scan>, dir: Directory, followees: seq<string>): (r: Option<seq<Tweet>>)
    ensures r.Some? ==> |r.value| <= PerPage
    ensures r.Some? ==> forall i :: 0 <= i < |r.value| ==> r.value[i].userName in followees
  {
    Select(scans, Named(dir), (t: Tweet) => t.userName in followees)
  }

  /** `i` is a position where `q` occurs in `s`. */
  predicate OccursAt(s: string, q: string, i: nat)
  {
    i + |q| <= |s| && s[i..i + |q|] == q
  }

  ghost predicate Contains(s: string, q: string)
  {
    exists i: nat :: OccursAt(s, q, i)
  }

  lemma OccursShift(s: string, q: string, i: nat)
    requires |s| > 0
    ensures OccursAt(s[1..], q, i) <==> OccursAt(s, q, i + 1)
  {
    if i + |q| <= |s[1..]| {
      assert s[1..][i..i + |q|] == s[i + 1..i + 1 + |q|];
    }
  }

  /** Go's `strings.Index(s, q)`: the first position of `q` in `s`, or -1.
      The position counts characters where Go counts bytes; callers only
      compare it with -1. */
  function IndexOf(s: string, q: string): (r: int)
    ensures r >= -1
    ensures r >= 0 ==> OccursAt(s, q, r) && forall i: nat :: i < r ==> !OccursAt(s, q, i)
    ensures r == -1 <==> !Contains(s, q)
    decreases |s|
  {
    if |s| < |q| then
      assert forall i: nat :: !OccursAt(s, q, i);
      -1
    else if q <= s then
      assert s[0..|q|] == q;
      0
    else
      assert !OccursAt(s, q, 0);
      var j := IndexOf(s[1..], q);
      forall i: nat
        ensures OccursAt(s[1..], q, i) <==> OccursAt(s, q, i + 1)
      {
        OccursShift(s, q, i);
      }
      assert forall i: nat :: OccursAt(s, q, i) ==> i == 0 || OccursAt(s[1..], q, i - 1);
      if j == -1 then -1 else j + 1
  }

  /** The query of the search page: `"#" + tag` on the hashtag route,
      otherwise the `q` parameter. */
  function SearchQuery(q: string, tag: string): string
  {
    if tag != "" then "#" + tag else q
  }

  /** `searchHandler`'s loop: posts whose stored HTML contains the query. */
  function SearchFeed(scans: seq<Scan>, dir: Directory, query: string): (r: Option<seq<Tweet>>)
    ensures r.Some? ==> |r.value| <= PerPage
    ensures r.Some? ==> forall i :: 0 <= i < |r.value| ==> Contains(r.value[i].html, query)
  {
    Select(scans, Named(dir), (t: Tweet) => IndexOf(t.html, query) != -1)
  }

  /** `userHandler`'s loop for a page before a cursor: the author's rows as
      they come, no name lookup, up to `PerPage` of them. */
  function OlderPosts(scans: seq<Scan>, user: string): (r: Option<seq<Tweet>>)
    ensures r.Some? ==> |r.value| <= PerPage
    ensures r.Some? ==> forall i :: 0 <= i < |r.value| ==> r.value[i].userName == user
  {
    var r := Select(scans, (row: Row) => Some(user), (t: Tweet) => true);
    assert r.Some? ==> forall i :: 0 <= i < |r.value| ==> r.value[i].userName == user by {
      if r.Some? {
        OlderPostsAuthor(scans, user, []);
      }
    }
    r
  }

  lemma {:induction false} OlderPostsAuthor(scans: seq<Scan>, user: string, acc: seq<Tweet>)
    requires |acc| < PerPage
    requires forall i :: 0 <= i < |acc| ==> acc[i].userName == user
    requires Gather(scans, (row: Row) => Some(user), (t: Tweet) => true, acc).Some?
    ensures forall t :: t in Gather(scans, (row: Row) => Some(user), (t: Tweet) => true, acc).value ==> t.userName == user
    decreases |scans|
  {
    if |scans| > 0 {
      var t := TweetOf(scans[0].row, user);
      var acc' := acc + [t];
      if |acc'| < PerPage {
        OlderPostsAuthor(scans[1..], user, acc');
      }
    }
  }

  // ---------------------------------------------------------------------------
  // The author page from the cache.

  /** Each line split at its first tab into a post of `user`; `None` when a
      line has no tab, where the source's `splited[1]` panics. */
  function DecodeAll(lines: seq<string>, user: string): (r: Option<seq<Tweet>>)
    ensures r.Some? <==> forall i :: 0 <= i < |lines| ==> '\t' in lines[i]
    ensures r.Some? ==> |r.value| == |lines|
    ensures r.Some? ==> forall i :: 0 <= i < |lines| ==>
      && r.value[i].userName == user
      && '\t' !in r.value[i].time
      && r.value[i].time + "\t" + r.value[i].html == lines[i]
  {
    if |lines| == 0 then Some([])
    else match DecodeLine(lines[0])
      case None => None
      case Some(pair) =>
        match DecodeAll(lines[1..], user)
        case None =>
          assert !forall i :: 0 <= i < |lines[1..]| ==> '\t' in lines[1..][i];
          None
        case Some(rest) => Some([Tweet(user, pair.1, pair.0)] + rest)
  }

  /** Why the author page could not be read from the cache. */
  datatype RecentError = RangeFailed | MalformedLine

  /** `userHandler` without a cursor: `LRANGE "tweet-"+user 0 50`, each line
      split into time and text. In a valid store this never fails when the
      engine answers, and it returns the first min(51, n) lines, newest push
      first. */
  function RecentPosts(st: Store, user: string, up: bool): (r: Result<seq<Tweet>, RecentError>)
    ensures Valid(st) && up ==> r.Ok?
    ensures r.Ok? ==> |r.value| == WindowSize(|Lines(st, TweetKey(user))|, 0, RecentStop)
    ensures r.Ok? ==> forall i :: 0 <= i < |r.value| ==>
      && r.value[i].userName == user
      && r.value[i].time + "\t" + r.value[i].html == Lines(st, TweetKey(user))[i]
  {
    assert Valid(st) ==> LRange(st, TweetKey(user), 0, RecentStop, true).Ok? && forall i :: 0 <= i < |Lines(st, TweetKey(user))| ==> '\t' in Lines(st, TweetKey(user))[i] by {
      if Valid(st) {
        ValidTweetList(st, user);
      }
    }
    match LRange(st, TweetKey(user), 0, RecentStop, up)
    case Err(_) => Err(RangeFailed)
    case Ok(lines) =>
      match DecodeAll(lines, user)
      case None => Err(MalformedLine)
      case Some(ts) => Ok(ts)
  }

  /** The window is `min(51, n)`: 51 once the author has more than 50 posts. */
  lemma RecentWindow(n: nat)
    ensures WindowSize(n, 0, RecentStop) == if n < 51 then n else 51
  {
  }

  /** A post just pushed is the first one the author page shows. */
  lemma PushedPostFirst(st: Store, user: string, now: Timestamp, text: string)
    requires Valid(st)
    ensures TweetStore(st, user, now, text, true).Ok?
    ensures RecentPosts(TweetStore(st, user, now, text, true).value, user, true).Ok?
    ensures RecentPosts(TweetStore(st, user, now, text, true).value, user, true).value[0] == Tweet(user, text, now)
  {
    var st' := TweetStore(st, user, now, text, true).value;
    var ts := RecentPosts(st', user, true).value;
    assert Lines(st', TweetKey(user))[0] == EncodeLine(now, text);
    DecodeEncode(now, text);
    var line := EncodeLine(now, text);
    assert ts[0].time + "\t" + ts[0].html == line;
    assert DecodeLine(line) == Some((ts[0].time, ts[0].html)) by {
      FirstTabAt(line, |ts[0].time|);
      assert line[..|ts[0].time|] == ts[0].time;
      assert line[|ts[0].time| + 1..] == ts[0].html;
    }
  }
}

=== FILE: friends.dfy ===
/** The followee list of a user: one row of the `friends` table whose
    `friends` column holds the followee names joined by commas. */
module Friends {
  import opened Base

  /** Go's `strings.Join(parts, ",")`. */
  function Join(parts: seq<string>): string
  {
    if |parts| == 0 then ""
    else if |parts| == 1 then parts[0]
    else parts[0] + "," + Join(parts[1..])
  }

  /** Prepending a character to the first piece prepends it to the joined text. */
  lemma {:induction false} JoinConsChar(c: char, parts: seq<string>)
    requires |parts| >= 1
    ensures Join([[c] + parts[0]] + parts[1..]) == [c] + Join(parts)
  {
    var q := [[c] + parts[0]] + parts[1..];
    assert q[0] == [c] + parts[0];
    if |parts| > 1 {
      assert q[1..] == parts[1..];
      var tail := Join(parts[1..]);
      assert Join(q) == ([c] + parts[0]) + "," + tail;
      assert Join(parts) == parts[0] + "," + tail;
      assert ([c] + parts[0]) + "," + tail == [c] + (parts[0] + "," + tail);
    }
  }

  /** Go's `strings.Split(s, ",")`: the pieces between commas, empty ones
      included; the empty string splits into one empty piece. */
  function Split(s: string): (r: seq<string>)
    ensures forall i :: 0 <= i < |r| ==> ',' !in r[i]
    ensures Join(r) == s
  {
    if |s| == 0 then [""]
    else
      var rest := Split(s[1..]);
      if s[0] == ',' then
        var r := [""] + rest;
        assert r[1..] == rest;
        assert Join(r) == "" + "," + Join(rest);
        assert s == "," + s[1..];
        r
      else
        JoinConsChar(s[0], rest);
        assert s == [s[0]] + s[1..];
        var r := [[s[0]] + rest[0]] + rest[1..];
        assert ',' !in r[0];
        assert forall i :: 1 <= i < |r| ==> r[i] == rest[i];
        r
  }

  /** There is one more piece than there are commas. */
  lemma {:induction false} SplitCount(s: string)
    ensures |Split(s)| == Count(s, ',') + 1
  {
    if |s| > 0 {
      SplitCount(s[1..]);
    }
  }

  /** A piece without commas splits into itself. */
  lemma {:induction false} SplitNoComma(s: string)
    requires ',' !in s
    ensures Split(s) == [s]
  {
    if |s| > 0 {
      assert ',' !in s[1..];
      SplitNoComma(s[1..]);
      assert s == [s[0]] + s[1..];
    }
  }

  /** Splitting stops at the first comma. */
  lemma {:induction false} SplitFirstComma(p: string, t: string)
    requires ',' !in p
    ensures Split(p + "," + t) == [p] + Split(t)
  {
    var s := p + "," + t;
    if |p| == 0 {
      assert s == "," + t;
      assert s[1..] == t;
    } else {
      assert s[1..] == p[1..] + "," + t;
      assert ',' !in p[1..];
      SplitFirstComma(p[1..], t);
      assert p == [p[0]] + p[1..];
    }
  }

  /** Splitting undoes joining, for any non-empty list of comma-free names:
      together with `Join(Split(s)) == s` this makes the two inverse. */
  lemma {:induction false} SplitJoin(parts: seq<string>)
    requires |parts| >= 1
    requires forall i :: 0 <= i < |parts| ==> ',' !in parts[i]
    ensures Split(Join(parts)) == parts
  {
    if |parts| == 1 {
      SplitNoComma(parts[0]);
    } else {
      SplitJoin(parts[1..]);
      SplitFirstComma(parts[0], Join(parts[1..]));
      assert parts == [parts[0]] + parts[1..];
    }
  }

  /** Empty pieces stay where they are: `"a,,b"` gives `["a", "", "b"]`. */
  lemma SplitKeepsEmptyPieces()
    ensures Split("a,,b") == ["a", "", "b"]
  {
    SplitJoin(["a", "", "b"]);
    assert Join(["a", "", "b"]) == "a,,b" by {
      assert ["a", "", "b"][1..] == ["", "b"];
      assert ["", "b"][1..] == ["b"];
    }
  }

  /** An empty column yields one empty name, not an empty list. */
  lemma SplitEmpty()
    ensures Split("") == [""]
  {
  }

  /** What the record store answers to `SELECT * FROM friends WHERE me = ?`. */
  datatype FriendsReply =
    | PrepareFailed          // the statement could not be prepared
    | NoRow                  // no row for this user (`sql.ErrNoRows`)
    | ScanFailed             // the row could not be read
    | Found(friends: string) // the comma-joined `friends` column

  datatype LoadError = PrepareError | NoRows | ScanError

  /** `loadFriends`: every failure is reported as an error with no list;
      a list that is returned always has at least one (possibly empty) name. */
  function LoadFriends(reply: FriendsReply): (r: Result<seq<string>, LoadError>)
    ensures r.Ok? <==> reply.Found?
    ensures r.Ok? ==> |r.value| >= 1 && Join(r.value) == reply.friends
    ensures r.Ok? ==> forall i :: 0 <= i < |r.value| ==> ',' !in r.value[i]
    ensures reply == NoRow ==> r == Err(NoRows)
  {
    match reply
    case PrepareFailed => Err(PrepareError)
    case NoRow => Err(NoRows)
    case ScanFailed => Err(ScanError)
    case Found(friends) => Ok(Split(friends))
  }
}

=== FILE: handlers.dfy ===
/** The request handlers, reduced to their cache and selection logic. Each
    handler is one atomic step from a cache store to a response and a new
    store; the record store, the follow table and template rendering are
    oracles in the environment, and every cache command's reachability is a
    parameter. */
module Handlers {
  import opened Base
  import opened Cache
  import opened Friends
  import opened Feeds
  import opened Markup

  /** What a template is given. `Index` is the signed-in home page, `Welcome`
      the visitor's page with its one-shot flash message, `Fragment` the
      posts-only `_tweets` template used for `append` requests. */
  datatype Page =
    | Index(name: string, tweets: seq<Tweet>)
    | Welcome(flash: string)
    | Fragment(tweets: seq<Tweet>)
    | Profile(viewer: string, user: string, tweets: seq<Tweet>, isFriend: bool, mypage: bool)
    | Results(viewer: string, tweets: seq<Tweet>, query: string)

  /** What the client receives. `Verbatim` is a body written as is (a cached
      or freshly rendered home page); `Blank` is a handler returning without
      writing anything; `Aborted` is a handler panic. */
  datatype Response =
    | Show(page: Page)
    | Verbatim(body: string)
    | NotFound
    | BadRequest
    | Redirect
    | Blank
    | Aborted

  /** Everything a handler reads besides the cache. */
  datatype Env = Env(
    render: Page -> string,
    dir: Directory,
    db: DbQuery -> Query,
    friends: string -> FriendsReply)

  /** The session: the signed-in user's id, if any, and the flash message. */
  datatype Session = Session(userId: Option<int>, flash: string)

  /** A handler's response and the store it leaves behind. */
  datatype Outcome = Outcome(resp: Response, st: Store)

  /** The name of the session's user; the empty name for a visitor or an
      unknown id. */
  function Viewer(env: Env, s: Session): string
  {
    match s.userId
    case None => ""
    case Some(id) => UserName(env.dir, id)
  }

  /** The query for the newest page or the page before a cursor. */
  function TimelineQuery(until: string): DbQuery
  {
    if until == "" then AllTweets else TweetsBefore(until)
  }

  /** The response a failed `db.Query` gets. */
  function QueryError(noRows: bool): (r: Response)
    ensures r == NotFound || r == BadRequest
    ensures r == NotFound <==> noRows
  {
    if noRows then NotFound else BadRequest
  }

  function PageTweets(p: Page): seq<Tweet>
  {
    match p
    case Index(_, ts) => ts
    case Welcome(_) => []
    case Fragment(ts) => ts
    case Profile(_, _, ts, _, _) => ts
    case Results(_, ts, _) => ts
  }

  // ---------------------------------------------------------------------------
  // GET /

  /** `topHandler`. The cached home page of the viewer is written back
      verbatim when present; otherwise the home feed is built from the rows
      and the follow list. A visitor gets the welcome page; an `append`
      request gets the posts alone; any other request renders the index
      page, stores it as the viewer's home page, and writes it out. */
  function Top(env: Env, st: Store, s: Session, until: string, append: string, getUp: bool, setUp: bool): (o: Outcome)
    ensures Agree(st, o.st, {HomeKey(Viewer(env, s))})
    ensures GetHome(st, Viewer(env, s), getUp).Ok? ==> o == Outcome(Verbatim(GetHome(st, Viewer(env, s), getUp).value), st)
    ensures o.st != st ==> Viewer(env, s) != "" && append == "" && GetHome(st, Viewer(env, s), getUp).Err?
    ensures o.st != st ==> o.resp.Verbatim? && GetHome(o.st, Viewer(env, s), true) == Ok(o.resp.body)
    ensures Viewer(env, s) == "" && GetHome(st, "", getUp).Err? ==> o == Outcome(Show(Welcome(s.flash)), st)
    ensures var q := env.db(TimelineQuery(until));
      Viewer(env, s) != "" && GetHome(st, Viewer(env, s), getUp).Err? && q.QueryFailed? ==>
        o == Outcome(QueryError(q.noRows), st)
    ensures var q := env.db(TimelineQuery(until)); var f := LoadFriends(env.friends(Viewer(env, s)));
      Viewer(env, s) != "" && GetHome(st, Viewer(env, s), getUp).Err? && q.Rows? && f.Err? ==>
        o == Outcome(BadRequest, st)
    ensures var q := env.db(TimelineQuery(until)); var f := LoadFriends(env.friends(Viewer(env, s)));
      Viewer(env, s) != "" && GetHome(st, Viewer(env, s), getUp).Err? && q.Rows? && f.Ok? && HomeFeed(q.scans, env.dir, f.value).None? ==>
        o == Outcome(BadRequest, st)
    ensures var q := env.db(TimelineQuery(until)); var f := LoadFriends(env.friends(Viewer(env, s)));
      Viewer(env, s) != "" && GetHome(st, Viewer(env, s), getUp).Err? && q.Rows? && f.Ok? && HomeFeed(q.scans, env.dir, f.value).Some? ==>
        o == if append != "" then Outcome(Show(Fragment(HomeFeed(q.scans, env.dir, f.value).value)), st)
             else if !setUp then Outcome(BadRequest, st)
             else Outcome(Verbatim(env.render(Index(Viewer(env, s), HomeFeed(q.scans, env.dir, f.value).value))),
                          st[HomeKey(Viewer(env, s)) := Str(env.render(Index(Viewer(env, s), HomeFeed(q.scans, env.dir, f.value).value)))])
    ensures Valid(st) ==> Valid(o.st)
  {
    var name := Viewer(env, s);
    match GetHome(st, name, getUp)
    case Ok(page) => Outcome(Verbatim(page), st)
    case Err(_) =>
      if name == "" then Outcome(Show(Welcome(s.flash)), st)
      else match env.db(TimelineQuery(until))
        case QueryFailed(noRows) => Outcome(QueryError(noRows), st)
        case Rows(scans) =>
          match LoadFriends(env.friends(name))
          case Err(_) => Outcome(BadRequest, st)
          case Ok(followees) =>
            match HomeFeed(scans, env.dir, followees)
            case None => Outcome(BadRequest, st)
            case Some(tweets) =>
              if append != "" then Outcome(Show(Fragment(tweets)), st)
              else
                var body := env.render(Index(name, tweets));
                match UpdateHome(st, name, body, setUp)
                case Err(_) => Outcome(BadRequest, st)
                case Ok(st') => Outcome(Verbatim(body), st')
  }

  /** On a cache hit neither the cursor nor `append` matters, and nothing
      is written. */
  lemma TopHitIgnoresParameters(env: Env, st: Store, s: Session, until: string, append: string, until': string, append': string, setUp: bool, setUp': bool)
    requires GetHome(st, Viewer(env, s), true).Ok?
    ensures Top(env, st, s, until, append, true, setUp) == Top(env, st, s, until', append', true, setUp')
    ensures Top(env, st, s, until, append, true, setUp).st == st
  {
  }

  /** On a miss the page computed for the cursor is the one cached, even
      when a cursor was given: the next plain visit is served that page. */
  lemma TopCachesCursorPage(env: Env, st: Store, s: Session, until: string, scans: seq<Scan>, followees: seq<string>, tweets: seq<Tweet>)
    requires Viewer(env, s) != "" && HomeKey(Viewer(env, s)) !in st
    requires env.db(TimelineQuery(until)) == Rows(scans)
    requires LoadFriends(env.friends(Viewer(env, s))) == Ok(followees)
    requires HomeFeed(scans, env.dir, followees) == Some(tweets)
    ensures Top(env, st, s, until, "", true, true).st == st[HomeKey(Viewer(env, s)) := Str(env.render(Index(Viewer(env, s), tweets)))]
    ensures Top(env, Top(env, st, s, until, "", true, true).st, s, "", "", true, true).resp
         == Verbatim(env.render(Index(Viewer(env, s), tweets)))
  {
  }

  /** The home page shows, in row order, the first posts of followees only;
      the viewer's own posts are among them only if the viewer follows
      themself. */
  lemma HomeShowsFolloweesOnly(scans: seq<Scan>, dir: Directory, followees: seq<string>, viewer: string)
    requires HomeFeed(scans, dir, followees).Some?
    requires viewer !in followees
    ensures forall i :: 0 <= i < |HomeFeed(scans, dir, followees).value| ==> HomeFeed(scans, dir, followees).value[i].userName != viewer
  {
  }

  // ---------------------------------------------------------------------------
  // POST /

  /** `tweetPostHandler`. `insertOk` is the outcome of the row insert; the
      push to the author's list is attempted whatever it was, and its own
      failure is ignored. The home page is cleared only after a successful
      insert. */
  function Post(env: Env, st: Store, s: Session, text: string, now: Timestamp, insertOk: bool, pushUp: bool, delUp: bool): (o: Outcome)
    ensures text == "" || Viewer(env, s) == "" ==> o == Outcome(Redirect, st)
    ensures Agree(st, o.st, {HomeKey(Viewer(env, s)), TweetKey(Viewer(env, s))})
    ensures Valid(st) && Viewer(env, s) != "" && text != "" && pushUp ==>
      Lines(o.st, TweetKey(Viewer(env, s))) == [EncodeLine(now, Htmlify(text))] + Lines(st, TweetKey(Viewer(env, s)))
    ensures !insertOk ==> Agree(st, o.st, {TweetKey(Viewer(env, s))})
    ensures !pushUp ==> Agree(st, o.st, {HomeKey(Viewer(env, s))})
    ensures !delUp ==> Agree(st, o.st, {TweetKey(Viewer(env, s))})
    ensures insertOk && delUp && Viewer(env, s) != "" && text != "" ==> HomeKey(Viewer(env, s)) !in o.st && o.resp == Redirect
    ensures Viewer(env, s) != "" && text != "" && !(insertOk && delUp) ==> o.resp == BadRequest
    ensures Valid(st) ==> Valid(o.st)
  {
    var name := Viewer(env, s);
    if name == "" || text == "" then Outcome(Redirect, st)
    else
      KeyNamespaces(name, name);
      var st1 := match TweetStore(st, name, now, Htmlify(text), pushUp)
        case Ok(pushed) => pushed
        case Err(_) => st;
      if !insertOk then Outcome(BadRequest, st1)
      else match ClearHome(st1, name, delUp)
        case Err(_) => Outcome(BadRequest, st1)
        case Ok(st2) => Outcome(Redirect, st2)
  }

  // ---------------------------------------------------------------------------
  // POST /follow and POST /unfollow

  /** `followHandler` and `unfollowHandler`, which differ only in the request
      they send to the follow service. `remoteOk` says whether that request
      was built and answered with status 200. */
  function FollowChange(env: Env, st: Store, s: Session, remoteOk: bool, delUp: bool): (o: Outcome)
    ensures Viewer(env, s) == "" ==> o == Outcome(Redirect, st)
    ensures Agree(st, o.st, {HomeKey(Viewer(env, s))})
    ensures Viewer(env, s) != "" && !remoteOk ==> o == Outcome(BadRequest, st)
    ensures Viewer(env, s) != "" && remoteOk && !delUp ==> o == Outcome(BadRequest, st)
    ensures o.resp == Redirect && Viewer(env, s) != "" <==> remoteOk && delUp && Viewer(env, s) != ""
    ensures o.resp == Redirect && Viewer(env, s) != "" ==> HomeKey(Viewer(env, s)) !in o.st
    ensures Valid(st) ==> Valid(o.st)
  {
    var name := Viewer(env, s);
    if name == "" then Outcome(Redirect, st)
    else if !remoteOk then Outcome(BadRequest, st)
    else match ClearHome(st, name, delUp)
      case Err(_) => Outcome(BadRequest, st)
      case Ok(st') => Outcome(Redirect, st')
  }

  /** A post, a follow or an unfollow by `actor` leaves every other user's
      home page as it was, including those of the actor's followers: they
      may be served a page without the actor's new post. */
  lemma OthersHomeUnchanged(env: Env, st: Store, s: Session, other: string, text: string, now: Timestamp, insertOk: bool, pushUp: bool, delUp: bool, remoteOk: bool, up: bool)
    requires other != Viewer(env, s)
    ensures GetHome(Post(env, st, s, text, now, insertOk, pushUp, delUp).st, other, up) == GetHome(st, other, up)
    ensures GetHome(FollowChange(env, st, s, remoteOk, delUp).st, other, up) == GetHome(st, other, up)
  {
    var actor := Viewer(env, s);
    KeyNamespaces(other, actor);
    assert HomeKey(other) !in {HomeKey(actor), TweetKey(actor)};
  }

  // ---------------------------------------------------------------------------
  // GET /{user}

  /** `userHandler`. An unknown author is not found. The follow list is read
      only for a signed-in viewer. Without a cursor the page is the head of
      the author's cached list; with one it is read from the rows. The store
      is never written. */
  function UserPage(env: Env, st: Store, s: Session, user: string, until: string, append: string, rangeUp: bool): (r: Response)
    ensures UserId(env.dir, user) == 0 ==> r == NotFound
    ensures r.Show? ==> forall i :: 0 <= i < |PageTweets(r.page)| ==> PageTweets(r.page)[i].userName == user
    ensures r.Show? && until == "" ==> |PageTweets(r.page)| == WindowSize(|Lines(st, TweetKey(user))|, 0, RecentStop)
    ensures r.Show? && until != "" ==> |PageTweets(r.page)| <= PerPage
    ensures r.Show? ==> (r.page.Fragment? <==> append != "")
    ensures r.Show? && r.page.Profile? ==> r.page.mypage == (user == Viewer(env, s))
    ensures r.Show? && r.page.Profile? ==>
      (r.page.isFriend <==> (&& Viewer(env, s) != ""
                             && LoadFriends(env.friends(Viewer(env, s))).Ok?
                             && user in LoadFriends(env.friends(Viewer(env, s))).value))
    ensures (&& Valid(st) && rangeUp && until == "" && UserId(env.dir, user) != 0
             && (Viewer(env, s) == "" || env.friends(Viewer(env, s)).Found?)) ==> r.Show?
    ensures UserId(env.dir, user) != 0 && Viewer(env, s) != "" && LoadFriends(env.friends(Viewer(env, s))).Err? ==> r == BadRequest
    ensures (&& UserId(env.dir, user) != 0 && until == "" && !rangeUp
             && (Viewer(env, s) == "" || LoadFriends(env.friends(Viewer(env, s))).Ok?)) ==> r == BadRequest
    ensures var q := env.db(AuthorTweetsBefore(UserId(env.dir, user), until));
      (&& UserId(env.dir, user) != 0 && until != ""
       && (Viewer(env, s) == "" || LoadFriends(env.friends(Viewer(env, s))).Ok?)) ==>
        && (q.QueryFailed? ==> r == QueryError(q.noRows))
        && (q.Rows? && OlderPosts(q.scans, user).None? ==> r == BadRequest)
        && (q.Rows? && OlderPosts(q.scans, user).Some? ==> r.Show? && PageTweets(r.page) == OlderPosts(q.scans, user).value)
    ensures (&& UserId(env.dir, user) != 0 && until == ""
             && (Viewer(env, s) == "" || LoadFriends(env.friends(Viewer(env, s))).Ok?)
             && RecentPosts(st, user, rangeUp) == Err(MalformedLine)) ==> r == Aborted
  {
    var name := Viewer(env, s);
    var uid := UserId(env.dir, user);
    if uid == 0 then NotFound
    else
      var friendship: Option<bool> :=
        if name == "" then Some(false)
        else match LoadFriends(env.friends(name))
          case Err(_) => None
          case Ok(followees) => Some(user in followees);
      match friendship
      case None => BadRequest
      case Some(isFriend) =>
        var posts: Result<seq<Tweet>, Response> :=
          if until == "" then
            match RecentPosts(st, user, rangeUp)
            case Err(RangeFailed) => Err(BadRequest)
            case Err(MalformedLine) => Err(Aborted)
            case Ok(ts) => Ok(ts)
          else
            match env.db(AuthorTweetsBefore(uid, until))
            case QueryFailed(noRows) => Err(QueryError(noRows))
            case Rows(scans) =>
              match OlderPosts(scans, user)
              case None => Err(BadRequest)
              case Some(ts) => Ok(ts);
        match posts
        case Err(resp) => resp
        case Ok(ts) =>
          if append != "" then Show(Fragment(ts))
          else Show(Profile(name, user, ts, isFriend, user == name))
  }

  /** Without a cursor the author page shows the author's lines in list
      order, newest push first, each split at its first tab. */
  lemma UserPageShowsList(env: Env, st: Store, s: Session, user: string, append: string)
    requires Valid(st) && UserId(env.dir, user) != 0
    requires Viewer(env, s) == "" || env.friends(Viewer(env, s)).Found?
    ensures UserPage(env, st, s, user, "", append, true).Show?
    ensures forall i :: 0 <= i < |PageTweets(UserPage(env, st, s, user, "", append, true).page)| ==>
      var t := PageTweets(UserPage(env, st, s, user, "", append, true).page)[i];
      EncodeLine(t.time, t.html) == Lines(st, TweetKey(user))[i] && DecodeLine(Lines(st, TweetKey(user))[i]) == Some((t.time, t.html))
  {
    var ts := PageTweets(UserPage(env, st, s, user, "", append, true).page);
    forall i | 0 <= i < |ts|
      ensures EncodeLine(ts[i].time, ts[i].html) == Lines(st, TweetKey(user))[i]
      ensures DecodeLine(Lines(st, TweetKey(user))[i]) == Some((ts[i].time, ts[i].html))
    {
      DecodeEncode(ts[i].time, ts[i].html);
    }
  }

  // ---------------------------------------------------------------------------
  // GET /search and GET /hashtag/{tag}

  /** `searchHandler`: the rows whose stored HTML contains the query, which on
      the hashtag route is `"#" + tag`. The store is not involved. */
  function Search(env: Env, s: Session, q: string, tag: string, until: string, append: string): (r: Response)
    ensures r.Show? ==> |PageTweets(r.page)| <= PerPage
    ensures r.Show? ==> forall i :: 0 <= i < |PageTweets(r.page)| ==> Contains(PageTweets(r.page)[i].html, SearchQuery(q, tag))
    ensures r.Show? ==> (r.page.Fragment? <==> append != "")
    ensures r.Show? && r.page.Results? ==> r.page.query == (if tag != "" then "#" + tag else q) && r.page.viewer == Viewer(env, s)
    ensures env.db(TimelineQuery(until)).QueryFailed? ==> r == QueryError(env.db(TimelineQuery(until)).noRows)
    ensures env.db(TimelineQuery(until)).Rows? && SearchFeed(env.db(TimelineQuery(until)).scans, env.dir, SearchQuery(q, tag)).None? ==> r == BadRequest
    ensures var qr := env.db(TimelineQuery(until));
      qr.Rows? && SearchFeed(qr.scans, env.dir, SearchQuery(q, tag)).Some? ==>
        r.Show? && PageTweets(r.page) == SearchFeed(qr.scans, env.dir, SearchQuery(q, tag)).value
  {
    var query := SearchQuery(q, tag);
    match env.db(TimelineQuery(until))
    case QueryFailed(noRows) => QueryError(noRows)
    case Rows(scans) =>
      match SearchFeed(scans, env.dir, query)
      case None => BadRequest
      case Some(ts) =>
        if append != "" then Show(Fragment(ts))
        else Show(Results(Viewer(env, s), ts, query))
  }
}

=== FILE: markup.dfy ===
/** Post rendering: `htmlify` turns the raw text of a post into the HTML that
    is stored and shown. It escapes five characters with five successive
    whole-string replacements, then rewrites every hashtag (the regular
    expression `#(\S+)(\s|$)`) into a link. */
module Markup {
  import opened Base

  /** RE2's `\s` class: tab, line feed, form feed, carriage return, space. */
  predicate IsSpace(c: char)
  {
    c == '\t' || c == '\n' || c == '\U{000C}' || c == '\r' || c == ' '
  }

  /** One of the characters the five replacements rewrite. */
  predicate IsSpecial(c: char)
  {
    c == '&' || c == '<' || c == '>' || c == '\'' || c == '"'
  }

  // ---------------------------------------------------------------------------
  // Escaping

  /** Go's `strings.Replace(s, from, to, -1)` for a one-character `from`:
      every occurrence, left to right, without rescanning what was inserted. */
  function Replace(s: string, from: char, to: string): (r: string)
    ensures from !in s ==> r == s
    ensures from !in to ==> from !in r
  {
    if |s| == 0 then ""
    else (if s[0] == from then to else [s[0]]) + Replace(s[1..], from, to)
  }

  /** The five replacements of `htmlify`, in the order the source applies them. */
  function EscapeText(s: string): string
  {
    var amp := Replace(s, '&', "&amp;");
    var lt := Replace(amp, '<', "&lt;");
    var gt := Replace(lt, '>', "&gt;");
    var apos := Replace(gt, '\'', "&apos;");
    Replace(apos, '"', "&quot;")
  }

  /** What one character of the raw text becomes once escaped. */
  function Entity(c: char): string
  {
    match c
    case '&' => "&amp;"
    case '<' => "&lt;"
    case '>' => "&gt;"
    case '\'' => "&apos;"
    case '"' => "&quot;"
    case _ => [c]
  }

  /** Reference definition of escaping: each character replaced independently,
      in one pass. */
  function EscapeEach(s: string): string
  {
    if |s| == 0 then "" else Entity(s[0]) + EscapeEach(s[1..])
  }

  /** `t[i..]` starts with one of the five entities. */
  predicate EntityAt(t: string, i: nat)
    requires i <= |t|
  {
    "&amp;" <= t[i..] || "&lt;" <= t[i..] || "&gt;" <= t[i..]
    || "&apos;" <= t[i..] || "&quot;" <= t[i..]
  }

  /** The shape escaped text always has: none of `< > ' "`, and every `&`
      opens an entity. */
  predicate Escaped(t: string)
  {
    && '<' !in t && '>' !in t && '\'' !in t && '"' !in t
    && forall i :: 0 <= i < |t| && t[i] == '&' ==> EntityAt(t, i)
  }

  lemma {:induction false} ReplaceConcat(a: string, b: string, from: char, to: string)
    ensures Replace(a + b, from, to) == Replace(a, from, to) + Replace(b, from, to)
  {
    if |a| == 0 {
      assert a + b == b;
    } else {
      assert (a + b)[1..] == a[1..] + b;
      ReplaceConcat(a[1..], b, from, to);
    }
  }

  lemma EscapeTextConcat(a: string, b: string)
    ensures EscapeText(a + b) == EscapeText(a) + EscapeText(b)
  {
    ReplaceConcat(a, b, '&', "&amp;");
    ReplaceConcat(Replace(a, '&', "&amp;"), Replace(b, '&', "&amp;"), '<', "&lt;");
    var a2, b2 := Replace(Replace(a, '&', "&amp;"), '<', "&lt;"), Replace(Replace(b, '&', "&amp;"), '<', "&lt;");
    ReplaceConcat(a2, b2, '>', "&gt;");
    var a3, b3 := Replace(a2, '>', "&gt;"), Replace(b2, '>', "&gt;");
    ReplaceConcat(a3, b3, '\'', "&apos;");
    var a4, b4 := Replace(a3, '\'', "&apos;"), Replace(b3, '\'', "&apos;");
    ReplaceConcat(a4, b4, '"', "&quot;");
  }

  lemma ReplaceSingle(c: char, from: char, to: string)
    ensures Replace([c], from, to) == (if c == from then to else [c])
  {
    assert [c][1..] == "";
  }

  // The stages after the first leave text alone that lacks their characters.

  lemma StagesFromLt(x: string)
    requires '<' !in x && '>' !in x && '\'' !in x && '"' !in x
    ensures Replace(Replace(Replace(Replace(x, '<', "&lt;"), '>', "&gt;"), '\'', "&apos;"), '"', "&quot;") == x
  {
  }

  lemma StagesFromGt(x: string)
    requires '>' !in x && '\'' !in x && '"' !in x
    ensures Replace(Replace(Replace(x, '>', "&gt;"), '\'', "&apos;"), '"', "&quot;") == x
  {
  }

  lemma StagesFromApos(x: string)
    requires '\'' !in x && '"' !in x
    ensures Replace(Replace(x, '\'', "&apos;"), '"', "&quot;") == x
  {
  }

  lemma EscapeTextChar(c: char)
    ensures EscapeText([c]) == Entity(c)
  {
    ReplaceSingle(c, '&', "&amp;");
    if c == '&' {
      StagesFromLt("&amp;");
    } else {
      ReplaceSingle(c, '<', "&lt;");
      if c == '<' {
        StagesFromGt("&lt;");
      } else {
        ReplaceSingle(c, '>', "&gt;");
        if c == '>' {
          StagesFromApos("&gt;");
        } else {
          ReplaceSingle(c, '\'', "&apos;");
          if c == '\'' {
            assert '"' !in "&apos;";
          } else {
            ReplaceSingle(c, '"', "&quot;");
          }
        }
      }
    }
  }

  /** The five successive replacements never re-escape an entity one of them
      introduced: together they act as a single pass over the raw text. */
  lemma {:induction false} EscapeTextIsSinglePass(s: string)
    ensures EscapeText(s) == EscapeEach(s)
  {
    if |s| == 0 {
    } else {
      assert s == [s[0]] + s[1..];
      EscapeTextConcat([s[0]], s[1..]);
      EscapeTextChar(s[0]);
      EscapeTextIsSinglePass(s[1..]);
    }
  }

  lemma {:induction false} EscapedConcat(a: string, b: string)
    requires Escaped(a) && Escaped(b)
    ensures Escaped(a + b)
  {
    var t := a + b;
    forall i | 0 <= i < |t| && t[i] == '&'
      ensures EntityAt(t, i)
    {
      if i < |a| {
        assert t[i..] == a[i..] + b;
        assert EntityAt(a, i);
      } else {
        assert t[i..] == b[i - |a|..];
        assert EntityAt(b, i - |a|);
      }
    }
  }

  lemma EntityEscaped(c: char)
    ensures Escaped(Entity(c))
  {
    var e := Entity(c);
    if IsSpecial(c) {
      assert e[0] == '&';
      assert EntityAt(e, 0);
      assert forall i :: 0 < i < |e| ==> e[i] != '&';
    }
  }

  lemma {:induction false} EscapeEachEscaped(s: string)
    ensures Escaped(EscapeEach(s))
  {
    if |s| > 0 {
      EntityEscaped(s[0]);
      EscapeEachEscaped(s[1..]);
      EscapedConcat(Entity(s[0]), EscapeEach(s[1..]));
    }
  }

  /** After the five replacements no `<`, `>`, `'` or `"` is left, and every
      `&` begins `&amp;`, `&lt;`, `&gt;`, `&apos;` or `&quot;`. */
  lemma EscapeTextEscaped(s: string)
    ensures Escaped(EscapeText(s))
  {
    EscapeTextIsSinglePass(s);
    EscapeEachEscaped(s);
  }

  /** A raw `<` becomes exactly `&lt;`: the `&` it introduces is not escaped again. */
  lemma EscapeLessThan()
    ensures EscapeText("<") == "&lt;"
  {
    EscapeTextChar('<');
  }

  /** Escaping only ever lengthens the text, strictly when there was
      something to escape. */
  lemma {:induction false} EscapeEachLength(s: string)
    ensures |EscapeEach(s)| >= |s|
    ensures (exists i :: 0 <= i < |s| && IsSpecial(s[i])) ==> |EscapeEach(s)| > |s|
  {
    if |s| > 0 {
      EscapeEachLength(s[1..]);
      if exists i :: 0 <= i < |s| && IsSpecial(s[i]) {
        var i :| 0 <= i < |s| && IsSpecial(s[i]);
        if i > 0 {
          assert IsSpecial(s[1..][i - 1]);
        }
      }
    }
  }

  /** Text holding one of the five special characters contains an `&` once escaped. */
  lemma {:induction false} EscapeEachAmp(s: string)
    requires exists i :: 0 <= i < |s| && IsSpecial(s[i])
    ensures '&' in EscapeEach(s)
  {
    var i :| 0 <= i < |s| && IsSpecial(s[i]);
    if i == 0 {
      assert Entity(s[0])[0] == '&';
    } else {
      assert IsSpecial(s[1..][i - 1]);
      EscapeEachAmp(s[1..]);
    }
  }

  // ---------------------------------------------------------------------------
  // Hashtags

  /** Go's `html.EscapeString` for one character. */
  function HtmlEntity(c: char): string
  {
    match c
    case '&' => "&amp;"
    case '\'' => "&#39;"
    case '<' => "&lt;"
    case '>' => "&gt;"
    case '"' => "&#34;"
    case _ => [c]
  }

  /** Go's `html.EscapeString`: a single pass over `s`. */
  function HtmlEscape(s: string): (r: string)
    ensures |r| >= |s|
  {
    if |s| == 0 then "" else HtmlEntity(s[0]) + HtmlEscape(s[1..])
  }

  /** On text that has been through the five replacements, `html.EscapeString`
      only changes `&`: the link text double-escapes every ampersand. */
  lemma {:induction false} HtmlEscapeOfEscaped(t: string)
    requires '<' !in t && '>' !in t && '\'' !in t && '"' !in t
    ensures HtmlEscape(t) == Replace(t, '&', "&amp;")
  {
    if |t| > 0 {
      assert t == [t[0]] + t[1..];
      assert '<' !in t[1..] && '>' !in t[1..] && '\'' !in t[1..] && '"' !in t[1..];
      HtmlEscapeOfEscaped(t[1..]);
      assert HtmlEntity(t[0]) == (if t[0] == '&' then "&amp;" else [t[0]]);
    }
  }

  /** The link a matched tag becomes. `tag` is everything after the `#`,
      including the terminating whitespace character when there is one. */
  function Anchor(tag: string): string
  {
    "<a class=\"hashtag\" href=\"/hashtag/" + tag + "\">#" + HtmlEscape(tag) + "</a>"
  }

  /** `t` holds no whitespace character. */
  predicate NoSpace(t: string)
  {
    forall i :: 0 <= i < |t| ==> !IsSpace(t[i])
  }

  /** Length of the longest prefix of `s` without whitespace: the greedy `\S+`. */
  function RunLength(s: string): (n: nat)
    ensures n <= |s|
    ensures NoSpace(s[..n])
    ensures n == |s| || IsSpace(s[n])
  {
    if |s| == 0 || IsSpace(s[0]) then 0
    else
      var n := 1 + RunLength(s[1..]);
      assert s[..n] == [s[0]] + s[1..][..n - 1];
      n
  }

  /** The maximal run is characterised by its two properties. */
  lemma {:induction false} RunLengthIs(s: string, m: nat)
    requires m <= |s| && NoSpace(s[..m])
    requires m == |s| || IsSpace(s[m])
    ensures RunLength(s) == m
  {
    if m > 0 {
      assert s[..m][0] == s[0];
      assert s[1..][..m - 1] == s[..m][1..];
      RunLengthIs(s[1..], m - 1);
    }
  }

  /** `s[..e]` is a match of `#(\S+)(\s|$)` anchored at the start of `s`:
      a `#`, a non-empty run without whitespace, then either one whitespace
      character or the end of the text. */
  predicate MatchesTag(s: string, e: nat)
  {
    && 2 <= e <= |s|
    && s[0] == '#'
    && (|| (e == |s| && NoSpace(s[1..e]))
        || (3 <= e && IsSpace(s[e - 1]) && NoSpace(s[1..e - 1])))
  }

  /** Where the match at the start of `s` ends, computed from the greedy run. */
  function TagEnd(s: string): nat
    requires 2 <= |s|
  {
    var run := 1 + RunLength(s[1..]);
    if run < |s| then run + 1 else run
  }

  /** Every match at the start of `s` ends where the greedy run says. */
  lemma MatchIsGreedy(s: string, e: nat)
    requires MatchesTag(s, e)
    ensures e == TagEnd(s)
  {
    if e == |s| && NoSpace(s[1..e]) {
      assert s[1..][..e - 1] == s[1..e];
      RunLengthIs(s[1..], e - 1);
    } else {
      assert s[1..][..e - 2] == s[1..e - 1];
      assert s[1..][e - 2] == s[e - 1];
      RunLengthIs(s[1..], e - 2);
    }
  }

  /** At a given position the pattern matches in at most one way, so greedy
      or not, leftmost-first or leftmost-longest, the match is the same. */
  lemma MatchUnique(s: string, e1: nat, e2: nat)
    requires MatchesTag(s, e1) && MatchesTag(s, e2)
    ensures e1 == e2
  {
    MatchIsGreedy(s, e1);
    MatchIsGreedy(s, e2);
  }

  /** The end of the match of `#(\S+)(\s|$)` at the start of `s`, if any. */
  function TagMatch(s: string): (m: Option<nat>)
    ensures m.Some? <==> exists e :: MatchesTag(s, e)
    ensures m.Some? ==> MatchesTag(s, m.value)
  {
    if 2 <= |s| && s[0] == '#' && !IsSpace(s[1]) then
      var run := 1 + RunLength(s[1..]);
      assert s[1..run] == s[1..][..run - 1];
      assert run < |s| ==> s[run] == s[1..][run - 1];
      assert MatchesTag(s, TagEnd(s));
      Some(TagEnd(s))
    else
      assert forall e: nat :: MatchesTag(s, e) ==> s[1..e][0] == s[1];
      None
  }

  /** Go's `ReplaceAllStringFunc` with the hashtag pattern: scan left to right,
      replace each match by its link and resume right after it. */
  function Linkify(s: string): string
    decreases |s|
  {
    if |s| == 0 then ""
    else match TagMatch(s)
      case Some(e) => Anchor(s[1..e]) + Linkify(s[e..])
      case None => [s[0]] + Linkify(s[1..])
  }

  /** `htmlify`: escape, then link the hashtags. */
  function Htmlify(text: string): string
  {
    Linkify(EscapeText(text))
  }

  /** Without a `#` there is nothing to link. */
  lemma {:induction false} LinkifyNoHash(s: string)
    requires '#' !in s
    ensures Linkify(s) == s
  {
    if |s| > 0 {
      assert s == [s[0]] + s[1..];
      assert '#' !in s[1..];
      LinkifyNoHash(s[1..]);
    }
  }

  /** A tag followed by whitespace: the whitespace character is swallowed into
      the match, so it sits inside both the href and the link text, and
      scanning resumes after it. An inner `#` belongs to the run. */
  lemma LinkifyTagThenSpace(run: string, sp: char, rest: string)
    requires |run| > 0 && NoSpace(run)
    requires IsSpace(sp)
    ensures Linkify("#" + run + [sp] + rest) == Anchor(run + [sp]) + Linkify(rest)
  {
    var s := "#" + run + [sp] + rest;
    assert s[1..] == run + [sp] + rest;
    assert s[1..][..|run|] == run;
    RunLengthIs(s[1..], |run|);
    assert s[1] == run[0];
    assert TagMatch(s) == Some(|run| + 2);
    assert s[1..|run| + 2] == run + [sp];
    assert s[|run| + 2..] == rest;
  }

  /** A tag at the very end of the text (the `$` alternative). */
  lemma LinkifyTagAtEnd(run: string)
    requires |run| > 0 && NoSpace(run)
    ensures Linkify("#" + run) == Anchor(run)
  {
    var s := "#" + run;
    assert s[1..] == run;
    assert run[..|run|] == run;
    RunLengthIs(run, |run|);
    assert s[1] == run[0];
    assert TagEnd(s) == |s|;
    assert TagMatch(s) == Some(|s|);
    LinkifyMatch(s, |s|);
    assert s[1..|s|] == run;
    assert s[|s|..] == "";
  }

  /** One step of the scan at a match. */
  lemma LinkifyMatch(s: string, e: nat)
    requires 0 < |s| && TagMatch(s) == Some(e)
    ensures e <= |s| && Linkify(s) == Anchor(s[1..e]) + Linkify(s[e..])
  {
  }

  /** A `#` followed by whitespace is not a tag and is kept as it is. */
  lemma LinkifyBareHash(sp: char, rest: string)
    requires IsSpace(sp)
    ensures Linkify(['#', sp] + rest) == ['#', sp] + Linkify(rest)
  {
    var s := ['#', sp] + rest;
    assert s[1] == sp;
    assert TagMatch(s) == None;
    assert s[1..] == [sp] + rest;
    assert s[1..][0] == sp;
    assert TagMatch(s[1..]) == None;
    assert s[1..][1..] == rest;
  }

  /** A `#` at the very end is not a tag either. */
  lemma LinkifyTrailingHash()
    ensures Linkify("#") == "#"
  {
    assert TagMatch("#") == None;
    assert "#"[1..] == "";
  }

  /** A link holds its `#` and every character of its tag, and is longer
      than both together. */
  lemma AnchorHoldsTag(tag: string)
    ensures |Anchor(tag)| > |tag| + 1
    ensures '#' in Anchor(tag)
    ensures forall c :: c in tag ==> c in Anchor(tag)
  {
    var pre := "<a class=\"hashtag\" href=\"/hashtag/";
    var a := Anchor(tag);
    assert a == pre + tag + "\">#" + HtmlEscape(tag) + "</a>";
    assert a[|pre| + |tag| + 2] == '#';
    assert a[|pre|..|pre| + |tag|] == tag;
  }

  /** Linking never shortens text. */
  lemma {:induction false} LinkifyGrows(s: string)
    ensures |Linkify(s)| >= |s|
    decreases |s|
  {
    if |s| > 0 {
      match TagMatch(s)
      case Some(e) =>
        LinkifyGrows(s[e..]);
        AnchorHoldsTag(s[1..e]);
      case None =>
        LinkifyGrows(s[1..]);
    }
  }

  /** Linking only adds text around what is there: every character of the
      input is still in the output. */
  lemma {:induction false} LinkifyKeeps(s: string, c: char)
    requires c in s
    ensures c in Linkify(s)
    decreases |s|
  {
    match TagMatch(s)
    case Some(e) =>
      var tag, rest := s[1..e], s[e..];
      assert Linkify(s) == Anchor(tag) + Linkify(rest);
      AnchorHoldsTag(tag);
      assert s == ['#'] + tag + rest;
      if c != '#' && c !in tag {
        LinkifyKeeps(rest, c);
      }
    case None =>
      assert s == [s[0]] + s[1..];
      if c != s[0] {
        LinkifyKeeps(s[1..], c);
      }
  }

  /** Escaping adds no whitespace. */
  lemma {:induction false} EscapeEachNoSpace(s: string)
    requires NoSpace(s)
    ensures NoSpace(EscapeEach(s))
  {
    if |s| > 0 {
      var head, tail := Entity(s[0]), EscapeEach(s[1..]);
      assert NoSpace(s[1..]) by {
        forall i | 0 <= i < |s[1..]|
          ensures !IsSpace(s[1..][i])
        {
          assert s[1..][i] == s[i + 1];
        }
      }
      EscapeEachNoSpace(s[1..]);
      assert !IsSpace(s[0]);
      assert NoSpace(head);
      forall i | 0 <= i < |head + tail|
        ensures !IsSpace((head + tail)[i])
      {
        if i >= |head| {
          assert (head + tail)[i] == tail[i - |head|];
        }
      }
    }
  }

  /** A whole-text tag as `htmlify` renders it: the href carries the escaped
      tag, and the link text escapes it once more, so every entity's `&`
      reads `&amp;` there (`#a&b` links to `a&amp;b` with text `#a&amp;amp;b`). */
  lemma HtmlifyTagAtEnd(tag: string)
    requires |tag| > 0 && NoSpace(tag)
    ensures Htmlify("#" + tag)
         == "<a class=\"hashtag\" href=\"/hashtag/" + EscapeText(tag) + "\">#" + Replace(EscapeText(tag), '&', "&amp;") + "</a>"
  {
    EscapeHashTag(tag);
    var e := EscapeText(tag);
    EscapeTextIsSinglePass(tag);
    EscapeEachLength(tag);
    EscapeEachNoSpace(tag);
    EscapeTextEscaped(tag);
    LinkifyTagAtEnd(e);
    HtmlEscapeOfEscaped(e);
  }

  /** Escaping a tag with its `#` and terminator escapes the tag alone. */
  lemma EscapeTagWithEnds(tag: string, sp: char)
    requires IsSpace(sp)
    ensures EscapeText("#" + tag + [sp]) == "#" + EscapeText(tag) + [sp]
  {
    EscapeHashTag(tag);
    EscapeTextConcat("#" + tag, [sp]);
    EscapeTextChar(sp);
  }

  /** Escaping a tag with its `#` escapes the tag alone. */
  lemma EscapeHashTag(tag: string)
    ensures EscapeText("#" + tag) == "#" + EscapeText(tag)
  {
    EscapeTextConcat("#", tag);
    EscapeTextChar('#');
  }

  /** A tag followed by whitespace as `htmlify` renders it: the whitespace
      character ends up inside the link, and the rest is rendered on its own. */
  lemma HtmlifyTagThenSpace(tag: string, sp: char, rest: string)
    requires |tag| > 0 && NoSpace(tag) && IsSpace(sp)
    ensures Htmlify("#" + tag + [sp] + rest) == Anchor(EscapeText(tag) + [sp]) + Htmlify(rest)
  {
    var e := EscapeText(tag);
    EscapeTextConcat("#" + tag + [sp], rest);
    EscapeTagWithEnds(tag, sp);
    EscapeTextIsSinglePass(tag);
    EscapeEachLength(tag);
    EscapeEachNoSpace(tag);
    assert EscapeText("#" + tag + [sp] + rest) == "#" + e + [sp] + EscapeText(rest);
    LinkifyTagThenSpace(e, sp, EscapeText(rest));
  }

  /** Text with no `#` and none of `& < > ' "` comes back unchanged. */
  lemma HtmlifyPlain(s: string)
    requires '#' !in s
    requires forall i :: 0 <= i < |s| ==> !IsSpecial(s[i])
    ensures Htmlify(s) == s
  {
    assert '&' !in s && '<' !in s && '>' !in s && '\'' !in s && '"' !in s;
    LinkifyNoHash(s);
  }

  /** `htmlify` is not idempotent: on text holding any of `& < > ' "`, applying
      it a second time changes the result again (it escapes the `&` of the
      entities it introduced). */
  lemma HtmlifyNotIdempotent(s: string)
    requires exists i :: 0 <= i < |s| && IsSpecial(s[i])
    ensures Htmlify(Htmlify(s)) != Htmlify(s)
  {
    var h := Htmlify(s);
    EscapeTextIsSinglePass(s);
    EscapeEachAmp(s);
    LinkifyKeeps(EscapeText(s), '&');
    assert '&' in h;
    var k :| 0 <= k < |h| && h[k] == '&';
    assert IsSpecial(h[k]);
    EscapeTextIsSinglePass(h);
    EscapeEachLength(h);
    LinkifyGrows(EscapeText(h));
  }
}

=== FILE: rewrite.dfy ===
/** The one-off maintenance program: read every row of the `tweets` table and
    store `htmlify` of its text back into the row. */
module Rewrite {
  import opened Markup
  import opened Feeds

  /** The `text` column of the `tweets` table, by row id. */
  type Table = map<int, string>

  /** How the program ended. `Crashed` is the failed query: its error is not
      checked, and iterating the nil result panics. */
  datatype Ending = Done | ScanStopped | UpdateStopped | Crashed

  /** `UPDATE tweets SET text=? WHERE id=?` with the rendered text; an id with
      no row matches nothing and changes nothing. */
  function Update(table: Table, row: Row): (t: Table)
    ensures t.Keys == table.Keys
    ensures row.id in table ==> t[row.id] == Htmlify(row.text)
    ensures forall id :: id in table && id != row.id ==> t[id] == table[id]
  {
    if row.id in table then table[row.id := Htmlify(row.text)] else table
  }

  /** Row `j` scanned with id `id`. */
  predicate ScannedWith(scans: seq<Scan>, j: nat, id: int)
    requires j < |scans|
  {
    scans[j].Scanned? && scans[j].row.id == id
  }

  /** The loop from row `i` on; `updateOk(i)` is the outcome of row `i`'s
      update. The first scan or update error ends it; earlier updates stay. */
  function RewriteRows(table: Table, scans: seq<Scan>, i: nat, updateOk: nat -> bool): (r: (Ending, Table))
    requires i <= |scans|
    ensures r.1.Keys == table.Keys
    ensures forall id :: id in table && (forall j :: i <= j < |scans| ==> !ScannedWith(scans, j, id)) ==> r.1[id] == table[id]
    ensures r.0 == Done ==> forall j :: i <= j < |scans| ==> scans[j].Scanned? && updateOk(j)
    ensures r.0 != Crashed
    decreases |scans| - i
  {
    if i == |scans| then (Done, table)
    else match scans[i]
      case ScanError => (ScanStopped, table)
      case Scanned(row) =>
        if !updateOk(i) then (UpdateStopped, table)
        else
          var r := RewriteRows(Update(table, row), scans, i + 1, updateOk);
          assert forall id :: id in table && (forall j :: i <= j < |scans| ==> !ScannedWith(scans, j, id)) ==> r.1[id] == table[id] by {
            forall id | id in table && (forall j :: i <= j < |scans| ==> !ScannedWith(scans, j, id))
              ensures r.1[id] == table[id]
            {
              assert !ScannedWith(scans, i, id);
            }
          }
          r
  }

  /** The whole program over the answer to `SELECT * FROM tweets`. */
  function RewriteAll(table: Table, query: Query, updateOk: nat -> bool): (r: (Ending, Table))
    ensures r.1.Keys == table.Keys
    ensures r.0 == Crashed <==> query.QueryFailed?
    ensures r.0 == Crashed ==> r.1 == table
  {
    match query
    case QueryFailed(_) => (Crashed, table)
    case Rows(scans) => RewriteRows(table, scans, 0, updateOk)
  }

  /** No two rows scanned share an id. */
  predicate DistinctIds(scans: seq<Scan>)
  {
    forall a, b :: 0 <= a < b < |scans| && scans[a].Scanned? && scans[b].Scanned? ==> scans[a].row.id != scans[b].row.id
  }

  lemma {:induction false} RewriteRowsCompleted(table: Table, scans: seq<Scan>, i: nat, updateOk: nat -> bool)
    requires i <= |scans| && DistinctIds(scans)
    requires RewriteRows(table, scans, i, updateOk).0 == Done
    ensures forall j :: i <= j < |scans| && scans[j].row.id in table ==>
      RewriteRows(table, scans, i, updateOk).1[scans[j].row.id] == Htmlify(scans[j].row.text)
    decreases |scans| - i
  {
    if i < |scans| {
      var row := scans[i].row;
      var table' := Update(table, row);
      var r := RewriteRows(table', scans, i + 1, updateOk);
      assert RewriteRows(table, scans, i, updateOk) == r;
      RewriteRowsCompleted(table', scans, i + 1, updateOk);
      forall j | i <= j < |scans| && scans[j].row.id in table
        ensures r.1[scans[j].row.id] == Htmlify(scans[j].row.text)
      {
        if j == i {
          forall j' | i + 1 <= j' < |scans|
            ensures !ScannedWith(scans, j', row.id)
          {
          }
          assert r.1[row.id] == table'[row.id];
        }
      }
    }
  }

  /** A run that completes leaves every scanned row holding the rendering of
      the text it was scanned with, and every other row as it was. */
  lemma RewriteCompleted(table: Table, scans: seq<Scan>, updateOk: nat -> bool)
    requires DistinctIds(scans)
    requires RewriteAll(table, Rows(scans), updateOk).0 == Done
    ensures forall j :: 0 <= j < |scans| && scans[j].row.id in table ==>
      RewriteAll(table, Rows(scans), updateOk).1[scans[j].row.id] == Htmlify(scans[j].row.text)
    ensures forall id :: id in table && (forall j :: 0 <= j < |scans| ==> !ScannedWith(scans, j, id)) ==>
      RewriteAll(table, Rows(scans), updateOk).1[id] == table[id]
  {
    RewriteRowsCompleted(table, scans, 0, updateOk);
  }

  lemma {:induction false} RewriteRowsPrefix(table: Table, scans: seq<Scan>, i: nat, k: nat, updateOk: nat -> bool)
    requires i <= k <= |scans|
    requires RewriteRows(table, scans[..k], i, updateOk).0 == Done
    ensures RewriteRows(table, scans, i, updateOk)
         == RewriteRows(RewriteRows(table, scans[..k], i, updateOk).1, scans, k, updateOk)
    decreases k - i
  {
    if i < k {
      var pre := scans[..k];
      assert pre[i] == scans[i];
      var table' := Update(table, scans[i].row);
      assert RewriteRows(table, pre, i, updateOk) == RewriteRows(table', pre, i + 1, updateOk);
      assert RewriteRows(table, scans, i, updateOk) == RewriteRows(table', scans, i + 1, updateOk);
      RewriteRowsPrefix(table', scans, i + 1, k, updateOk);
    }
  }

  /** An error at row `k` ends the run with the updates of the rows before
      it in place and nothing after it. */
  lemma RewriteStopsAtError(table: Table, scans: seq<Scan>, k: nat, updateOk: nat -> bool)
    requires k < |scans| && (scans[k].ScanError? || !updateOk(k))
    requires RewriteRows(table, scans[..k], 0, updateOk).0 == Done
    ensures RewriteAll(table, Rows(scans), updateOk).0 == (if scans[k].ScanError? then ScanStopped else UpdateStopped)
    ensures RewriteAll(table, Rows(scans), updateOk).1 == RewriteRows(table, scans[..k], 0, updateOk).1
  {
    RewriteRowsPrefix(table, scans, 0, k, updateOk);
  }

  /** Running the program over text that is already rendered renders it
      again: a stored `htmlify(s)` with any of `& < > ' "` in `s` changes. */
  lemma RewriteRendersTwice(table: Table, row: Row, s: string, updateOk: nat -> bool)
    requires row.id in table && row.text == Htmlify(s) && updateOk(0)
    requires exists i :: 0 <= i < |s| && IsSpecial(s[i])
    ensures RewriteAll(table, Rows([Scanned(row)]), updateOk).0 == Done
    ensures RewriteAll(table, Rows([Scanned(row)]), updateOk).1[row.id] == Htmlify(Htmlify(s)) != Htmlify(s)
  {
    var scans := [Scanned(row)];
    var table' := Update(table, row);
    assert RewriteRows(table', scans, 1, updateOk) == (Done, table');
    assert RewriteRows(table, scans, 0, updateOk) == (Done, table');
    assert table'[row.id] == Htmlify(Htmlify(s));
    HtmlifyNotIdempotent(s);
  }
}
